=== FILE: README.md ===
# Domain expiration monitor — a Dafny model of its core

The monitor keeps a list of domains. It re-reads each domain's WHOIS record on a
timer and stores the expiration date, nameservers, registrant and registrar. It
raises one alert per (domain, threshold) once the time left before expiry falls
within a configured threshold. It delivers each alert to a Google Chat webhook,
retrying a failed delivery.

This project models the core of that program in Dafny and proves properties of
the model:

- the alert evaluator and its notifier (`internal/alert/service.go`);
- the scheduler's timer map and its per-domain check (`internal/scheduler/scheduler.go`);
- the WHOIS lookup's retry loop and its response handling (`internal/whois/service.go`);
- the three repositories on the SQLite backend, modelled as in-memory tables (`internal/repository/*.go`);
- the value types and their column codecs (`internal/domain/*.go`);
- the input checks of the configuration form and of the add-domain form (`internal/web/handlers.go`).

## How the model is built

- **Time.** Instants and durations are integer nanoseconds. A `Duration` is an
  `int64`. The clock is never read: every operation takes `now` as a parameter.
  - Go's `Time.Sub` saturates at the bounds of `int64`, and the model does too.
  - Go's `time.Duration` products wrap around in two's complement, and so do the
    model's (`GoTime.Wrap64`).
  - Whole days are computed by integer division that truncates toward zero.
    Dafny's own `/` is Euclidean, so the model spells Go's division out
    (`GoTime.TruncDiv`).
- **Errors.** An error is its message string. `fmt.Errorf("p: %w", err)` becomes
  `Wrap(p, err)`, which is `p + ": " + err`.
- **Collaborators.** Everything the core asks of a collaborator is a parameter:
  - SQL failures other than constraint violations;
  - webhook answers and WHOIS answers;
  - new UUIDs;
  - the `2006-01-02` date rendering;
  - `time.Parse`;
  - the WHOIS parser;
  - `fmt.Sscanf("%d")`.
- **Stores.** Each table is a value.
  - The alerts and domains tables are sequences of rows in insertion order.
  - The config table holds at most one row.
  - `ORDER BY` and `WHERE` are a sort and a filter (module `Seqs`). Each has a
    functional contract: the result is a sorted permutation of the input, or
    exactly the matching rows with their multiplicities.
- **The thresholds column.** This column is real JSON text. `Durations.Value`
  writes it with a concrete `[]int64` JSON encoder. `Durations.Scan` reads it back
  with a concrete decoder (module `Int64Json`). So the round trip from `Update` to
  `Get` goes through the same encoding the program uses.
- **Retry loops.** The loop shared by webhook delivery, WHOIS lookup and database
  reconnect is written once (module `Retry`):
  - `Retry.Attempts` is a pure reference definition;
  - `Retry.RetryLoop` is the loop itself, run step by step, and is proved equal to
    the reference.

  Each attempt's outcome is a function of the attempt number. Sleeps are not
  performed; the list of durations slept is returned instead.
- **Timers.** Timers are handles: indices into the sequence of every timer made so
  far. Each timer is pending, stopped or fired.
- **Checks.** One check of a domain is a single sequential step (`Scheduler.CheckDomain`).
  - Its inputs are the outcomes of the domain lookup, the config read, the WHOIS
    query and the domain update.
  - Its outputs are the new scheduler state, the domain written and the domain
    evaluated.

Behaviour of the code that the model keeps on purpose:

- **Delivery retries.** Webhook delivery and WHOIS lookup sleep only between
  attempts: 1s, then 2s, with three attempts, so a failed delivery sleeps
  3s in all (`AlertService.DeliverySleeps`, `Retry.BackoffTotal`).
- **Lookup validation.** A successfully parsed WHOIS record is not validated.
  `QueryDomain` returns it even when its expiration date is the zero time.
- **Failed domain update.** When the domain update of a check fails, the domain is
  rescheduled but its alerts are not evaluated.
- **Failed config read.** When the config cannot be read, the domain is rescheduled
  with the `NextCheck` it already had. Once that moment has passed, the next check
  is due immediately (`Scheduler.ConfigFailureRetriesAtOnce`).
- **Thresholds at 25 days.** A domain 25 days from expiry crosses the 90-, 60- and
  30-day default thresholds, since 25 days is within each. A first evaluation
  records one alert for each of the three (`AlertService.DefaultConfigScenario`).
- **Duplicate IDs.** A constraint violation on a domain's ID is reported as
  "domain <name> already exists", like one on its name.
- **Retention delete.** `DeleteOlderThan` for domains never deletes anything
  (`DomainRepository.DeleteOlderThanKeepsAll`).
- **Double-wrapped errors.** Deduplication errors and config errors are wrapped
  twice with the same prefix, e.g. "failed to get config: failed to get config: …".
- **Large intervals.** A monitoring interval of 2562048 hours passes the form check,
  but `time.Duration(hours) * time.Hour` wraps to a negative interval
  (`Handlers.IntervalWraps`). Day counts of 106752 and above wrap the same way
  (`Handlers.DaysWrap`).
- **Webhook field.** The config form always replaces the webhook, so submitting an
  empty webhook field clears it.

## Model

| member | source | states |
|---|---|---|
| GoTime.Sub | internal/alert/service.go:40 | the time left is exact within `int64` and saturates outside it; it is positive exactly when the first instant is later and zero exactly when they are equal |
| GoTime.WholeDays | internal/domain/alert.go:30-33 | whole days in a duration truncated toward zero: `n` days fit below a non-negative duration with less than a day left over, and symmetrically for a negative one; the count never has the opposite sign to the duration, and anything under a day counts zero |
| GoTime.WholeDaysOdd | internal/domain/domain.go:24-27 | negating a duration negates its day count (truncation, unlike floor division, is symmetric) |
| Int64Json.EncodeDecode | internal/domain/config.go:53-90 | decoding the JSON text written for any list of `int64` gives back the same elements in the same order |
| Seqs.Filter | internal/repository/alert.go:108 | a `WHERE` keeps exactly the matching rows, each with its multiplicity |
| Seqs.SortBy | internal/repository/domain.go:103 | an `ORDER BY` returns a permutation of the rows whose keys never decrease |
| Retry.Attempts | internal/whois/service.go:28-44 | attempts stop at the first success and return its value; without a success exactly `max` attempts (none when `max <= 0`) are made, all failed, and the last error is kept; the sleeps are the first `attempts - 1` backoffs |
| Retry.RetryLoop | internal/whois/service.go:31-42 | the loop run step by step, with the backoff doubled in `int64` after each failure but the last, yields exactly the reference outcome `Attempts` |
| Retry.FirstSuccess | internal/whois/service.go:31-35 | when attempt `k` is the first success, exactly `k + 1` attempts are made and attempt `k`'s value is returned |
| Retry.BackoffDoubles | internal/whois/service.go:38-41 | the backoff after `i` failures is `2^i` seconds for the first 33 doublings |
| Retry.BackoffTotal | internal/whois/service.go:29-41 | the first `n` sleeps add up to `2^n - 1` seconds |
| Retry.BackoffWraps | internal/repository/db.go:106-116 | the 34th doubling overflows `time.Duration`: the backoff turns negative |
| Db.ScanFrom | internal/repository/db.go:141-146 | the scan from start index `i` succeeds exactly when the pattern occurs at some index at or after `i` |
| Db.ContainsMiddle | internal/repository/db.go:140-147 | trying every start index finds the pattern exactly when it is a contiguous substring |
| Db.Contains | internal/repository/db.go:133-138 | the length check, the whole-string, prefix and suffix shortcuts and the middle scan together decide substring occurrence exactly |
| Db.ContainsEmpty | internal/repository/db.go:134-135 | the empty pattern is found in every string |
| Db.UniqueImpliesConstraint | internal/repository/db.go:129-130 | a message containing "UNIQUE constraint failed" also contains "constraint failed" |
| Db.IsConstraintError | internal/repository/db.go:123-131 | no error is not a constraint error; an error is one exactly when its message contains "constraint failed" |
| Db.ReconnectWithBackoff | internal/repository/db.go:105-120 | success at the first good ping; otherwise exactly `maxRetries` pings (none when `maxRetries <= 0`), all failed, the error names `maxRetries`, and the sleeps are the doubling backoffs between pings |
| ConfigEntity.SetMonitoringInterval | internal/domain/config.go:20-27 | reading the interval back gives what was set, and no other field changes |
| ConfigEntity.SetRetentionPeriod | internal/domain/config.go:29-37 | reading the retention back gives what was set, and no other field changes |
| ConfigEntity.SetAlertThresholds | internal/domain/config.go:39-47 | the thresholds read back have the same length and the same elements in the same order, and no other field changes |
| ConfigEntity.GetSetIdentity | internal/domain/config.go:19-47 | writing back what a getter read leaves the configuration unchanged |
| ConfigEntity.DurationsValue | internal/domain/config.go:53-64 | an empty (or nil) list is stored as `[]`, and every stored text decodes to the list it was made from |
| ConfigEntity.DurationsScan | internal/domain/config.go:67-91 | `NULL` and non-byte values give the empty list with no error; bytes are decoded as a JSON `[]int64` and its error is returned as is |
| ConfigEntity.ValueScanRoundTrip | internal/domain/config.go:53-90 | scanning what `Value` stored gives back the same durations, element for element |
| ConfigEntity.ScanRejectsNonArray | internal/domain/config.go:79-82 | bytes whose first non-blank character starts neither an array nor `null` are rejected |
| ConfigEntity.ScanRejectsFraction | internal/domain/config.go:79-82 | an element with a fractional part makes the scan fail |
| ConfigRepository.FromRow | internal/repository/config.go:23-46 | a stored row reads back exactly when its thresholds column scans |
| ConfigRepository.RowRoundTrip | internal/repository/config.go:49-63 | a configuration written to the row reads back unchanged, thresholds included |
| ConfigRepository.DefaultConfig | internal/repository/config.go:107-130 | the defaults are ID 1, a one-day interval, 90-day retention, thresholds of 90, 60, 30 and 7 days in that order, and no webhook |
| ConfigRepository.Create | internal/repository/config.go:83-104 | the insert forces ID 1 and `UpdatedAt = now` and succeeds exactly on an empty table without a fault; a second row is a uniqueness failure |
| ConfigRepository.Get | internal/repository/config.go:23-46 | a failed select is reported; an empty table receives and returns the defaults (or reports the failed insert); an existing row is returned as stored and the table is not touched |
| ConfigRepository.Update | internal/repository/config.go:49-80 | the caller's config gets ID 1 and `UpdatedAt = now`; an existing row is overwritten, an empty table receives the row (upsert), and each failing step is reported with its prefix |
| ConfigRepository.GetExisting | internal/repository/config.go:23-46 | once a row exists, `Get` returns its configuration and leaves the table alone |
| ConfigRepository.UpdateThenGet | internal/repository/config.go:49-80 | after a successful `Update`, `Get` returns the same interval, thresholds, webhook and retention, with ID 1 |
| ConfigRepository.GetIsStable | internal/repository/config.go:34-41 | after `Get` has created the defaults, a later `Get` returns the same configuration |
| AlertEntity.SetThreshold | internal/domain/alert.go:19-27 | reading the threshold back gives what was set, and no other field changes |
| AlertEntity.DaysUntilExpiration | internal/domain/alert.go:29-33 | whole days from sending to expiration, truncated toward zero; never negative when expiry is not before sending |
| AlertRepository.Create | internal/repository/alert.go:23-45 | an empty ID becomes the fresh one; the record is appended exactly when no fault occurs and its ID is unused, with no check on its (domain, threshold) pair |
| AlertRepository.CountSent | internal/repository/alert.go:68-78 | the count is positive exactly when some record has the domain and threshold |
| AlertRepository.HasAlertBeenSent | internal/repository/alert.go:68-85 | true exactly when some record, successful or not, has the domain and threshold; a failed query is reported |
| AlertRepository.GetByDomainID | internal/repository/alert.go:48-64 | exactly that domain's records, each as often as stored, newest first |
| AlertRepository.GetRecentAlerts | internal/repository/alert.go:88-104 | exactly the records sent at or after `since`, newest first |
| AlertRepository.GetFailedAlerts | internal/repository/alert.go:127-143 | exactly the records whose delivery failed, newest first |
| AlertRepository.DeleteOlderThan | internal/repository/alert.go:107-124 | removes exactly the records sent before the cutoff and keeps all others; a failed delete removes nothing |
| AlertRepository.CreateThenSent | internal/repository/alert.go:68-85 | after a record is created, the dedup query reports its pair as sent |
| AlertRepository.CreateAllowsRepeatedPair | internal/repository/alert.go:23-45 | the insert accepts a second record for a pair that was already sent |
| DomainEntity.DaysUntilExpiration | internal/domain/domain.go:24-27 | whole days from `now` to expiration, truncated toward zero |
| DomainEntity.IsExpired | internal/domain/domain.go:30-32 | an expired domain has no positive day count left, and a live one no negative count |
| DomainEntity.ExpiredOnDayZero | internal/domain/domain.go:24-32 | during the first day after expiry a domain is expired while its day count still reads zero; at the expiry instant it is not yet expired |
| DomainEntity.StringsValue | internal/domain/domain.go:38-43 | a nil list is written as the empty list |
| DomainEntity.StringsScan | internal/domain/domain.go:46-59 | `NULL` and non-byte values give the empty list with no error; bytes go to the decoder |
| DomainRepository.UniqueFailedIsConstraint | internal/repository/domain.go:44-47 | SQLite's uniqueness messages are recognised as constraint errors |
| DomainRepository.Create | internal/repository/domain.go:23-52 | an empty ID becomes the fresh one and both timestamps become `now`; the row is appended exactly when its ID and name are unused; a taken ID or name is "domain <name> already exists"; the key constraints keep holding |
| DomainRepository.GetByID | internal/repository/domain.go:55-73 | the row with that ID when there is one, else "domain not found: <id>" |
| DomainRepository.GetByName | internal/repository/domain.go:76-94 | the row with that name when there is one, else "domain not found: <name>" |
| DomainRepository.GetAll | internal/repository/domain.go:97-112 | every row exactly once, soonest expiration first |
| DomainRepository.GetDomainsForCheck | internal/repository/domain.go:185-201 | exactly the rows whose next check is due, earliest first |
| DomainRepository.Update | internal/repository/domain.go:115-144 | a missing ID is "domain not found"; otherwise the row's columns are overwritten, `UpdatedAt = now`, `CreatedAt` and every other row are kept, and taking another row's name is refused |
| DomainRepository.Delete | internal/repository/domain.go:147-165 | removes the row with that ID and no other; a missing ID is "domain not found" |
| DomainRepository.DeleteOlderThan | internal/repository/domain.go:169-182 | a failed delete changes nothing and is reported |
| DomainRepository.DeleteOlderThanKeepsAll | internal/repository/domain.go:170 | the retention delete removes no domain: every ID is in the table its subquery reads |
| DomainRepository.CreateThenGetByID | internal/repository/domain.go:23-73 | a created domain is found by its ID with the name, registrant, registrar and nameservers it was created with |
| WhoisEntity.MissingFieldInvalid | internal/domain/whois.go:19-25 | a missing name, expiration date, nameserver list, registrant or registrar makes the record invalid |
| WhoisEntity.DaysUntilExpiration | internal/domain/whois.go:28-31 | whole days from `now` to expiration, truncated toward zero |
| WhoisService.ParseWithFormats | internal/whois/service.go:99-119 | the date is the first layout's parse that succeeds, with all earlier layouts failing; it fails only when every layout fails, with the last layout's error |
| WhoisService.OptionalDate | internal/whois/service.go:121-141 | an empty or unreadable optional date is the zero time; any other result is what some layout parsed, namely the first layout that parses |
| WhoisService.ExtractRegistrant | internal/whois/service.go:170-184 | name, else organization, else email, else "Unknown" (also without a registrant), so never empty |
| WhoisService.ParseResponse | internal/whois/service.go:87-167 | a parser error or a missing domain section is an error; it succeeds exactly when the expiration date parses, and then carries the section's name, nameservers, dates, the registrant fallback and the registrar's name (empty without one) |
| WhoisService.CompleteResponseIsValid | internal/whois/service.go:143-166 | a complete parser result yields a record that `IsValid` accepts |
| WhoisService.QueryOnce | internal/whois/service.go:48-84 | a timeout, a lookup failure and a parse failure each give their own message; a parsed response is returned as is |
| WhoisService.QueryDomain | internal/whois/service.go:27-45 | the first successful attempt's record; otherwise exactly `maxRetries` failed attempts and "failed after N attempts" wrapping the last error; the sleeps are the doubling backoffs between attempts |
| AlertService.SendToWebhook | internal/alert/service.go:108-129 | a delivery exactly when the status is 2xx; a transport error or another status is reported with its own message |
| AlertService.FormatAlertMessage | internal/alert/service.go:132-148 | the message contains the domain name, the rendered expiration date, the days remaining and the threshold in days |
| AlertService.SendAlert | internal/alert/service.go:80-105 | no webhook means no `POST` and "no webhook URL configured"; otherwise one to three `POST`s stopping at the first delivery, and after three failures "failed after 3 attempts" wrapping the last error |
| AlertService.DeliverySleeps | internal/alert/service.go:88-102 | a failed delivery sleeps exactly twice: one second, then two |
| AlertService.EvalFrom | internal/alert/service.go:42-74 | the loop only appends records; each new record is for the domain, sent now, for a crossed threshold from the list, the first of its (domain, threshold) pair, and successful exactly when it has no error text; nothing is appended when the domain has expired |
| AlertService.EvalDelivers | internal/alert/service.go:52-71 | every saved record is for a listed threshold and reports the delivery attempted at the first position listing it (a threshold listed twice is delivered once, at its first place): `success` exactly when `SendAlert` returned no error, and that error's text otherwise |
| AlertService.EvaluateAlerts | internal/alert/service.go:33-77 | existing records are kept; a failed config select or default-config insert is returned with its wraps before anything is written; otherwise a record is added only for a crossed threshold of the configured list with no earlier record of its pair, each record is successful with no text exactly when its delivery (at the threshold's first listed position) succeeded and otherwise carries the delivery error, and a run that reports no error leaves every crossed threshold recorded; an expired domain gets no record |
| AlertService.EvalCovers | internal/alert/service.go:42-74 | after a run without error every crossed threshold has a record for the domain |
| AlertService.EvalHealthy | internal/alert/service.go:42-74 | with a database that answers every statement and unused IDs, the loop never stops on an error |
| AlertService.EvalSkipsCovered | internal/alert/service.go:44-51 | thresholds that already have a record are skipped without any write |
| AlertService.EvaluateHealthy | internal/alert/service.go:33-77 | with a healthy database and a readable config, an evaluation reports no error |
| AlertService.EvaluateTwice | internal/alert/service.go:46-51 | evaluating the same domain again at the same instant after a successful evaluation creates no record, sends nothing and reports no error |
| AlertService.EvalError | internal/alert/service.go:46-71 | an error stops the loop at one crossed threshold: it is that threshold's dedup or save failure, and only records for earlier thresholds were made |
| AlertService.DefaultConfigScenario | internal/alert/service.go:33-77 | with the default config and no webhook, a domain 25 days from expiry gets three failed records, for 90, 60 and 30 days in that order, each saying "no webhook URL configured" |
| Scheduler.OnePendingPerDomain | internal/scheduler/scheduler.go:114 | in a valid state no domain has two pending timers |
| Scheduler.Delay | internal/scheduler/scheduler.go:101-107 | the delay is never negative, is positive exactly when the next check is still ahead, and then equals the time left |
| Scheduler.StopTimer | internal/scheduler/scheduler.go:97-99 | a stopped timer is no longer pending and keeps its domain and delay |
| Scheduler.ScheduleDomain | internal/scheduler/scheduler.go:92-115 | the domain's old timer is stopped and a single pending timer with the computed delay is mapped to it; other domains' timers and entries are unchanged |
| Scheduler.UnscheduleDomain | internal/scheduler/scheduler.go:118-126 | the domain has no entry and no pending timer afterwards; other entries and timers are unchanged; an absent ID changes nothing |
| Scheduler.Stop | internal/scheduler/scheduler.go:66-74 | after cancellation no timer is pending, and the map keeps its entries |
| Scheduler.Start | internal/scheduler/scheduler.go:50-63 | a failed load is reported and schedules nothing; otherwise every loaded domain has a pending timer with its delay (the last of equal IDs wins) and other entries are kept |
| Scheduler.Reschedule | internal/scheduler/scheduler.go:200-208 | nothing happens once the context is cancelled; otherwise the domain is scheduled |
| Scheduler.Fire | internal/scheduler/scheduler.go:110-112 | a fired timer is spent, it is the one mapped to its domain, and the check it starts is for that domain |
| Scheduler.Checked | internal/scheduler/scheduler.go:157-183 | a check sets the last-checked time to now and the next check one interval later; after a failed lookup the four WHOIS fields are preserved, after a successful one they are overwritten |
| Scheduler.CheckDomain | internal/scheduler/scheduler.go:129-198 | no slot or a missing domain ends the check with no write and no reschedule; a failed config read reschedules the unchanged domain; otherwise the checked domain is written, alerts are evaluated exactly when the write succeeded, and the domain is rescheduled unless cancelled |
| Scheduler.CheckStoresWhatItEvaluates | internal/scheduler/scheduler.go:177-194 | when the store's `Update` succeeds, the store holds the checked domain in place of its row, other rows are untouched, and alerts are evaluated for exactly that stored domain |
| Scheduler.CheckReschedulesAfterInterval | internal/scheduler/scheduler.go:155-198 | for a positive interval: after a check that read the config, the domain has exactly one pending timer, firing one interval later, whether the lookup or the write failed or not |
| Scheduler.CheckDueAtOnceForNonPositiveInterval | internal/scheduler/scheduler.go:155-206 | for a zero or negative interval (one the form's wrapping product can produce), the checked domain's pending timer has delay zero, so it is checked again at once |
| Scheduler.ConfigFailureRetriesAtOnce | internal/scheduler/scheduler.go:148-153 | when the config cannot be read and the next check is already due, the domain's new timer has delay zero |
| Handlers.ErrorText | internal/web/handlers.go:262-270 | the page shows the message alone, or the message followed by the error |
| Handlers.HoursToDuration | internal/web/handlers.go:200 | an accepted hour count within range becomes exactly that many hours, at least one hour |
| Handlers.DaysToDuration | internal/web/handlers.go:220 | an accepted day count within range becomes exactly that many days, at least one day |
| Handlers.IntervalWraps | internal/web/handlers.go:193-200 | 2562048 hours passes the check but the stored interval is negative |
| Handlers.DaysWrap | internal/web/handlers.go:213-220 | 106752 days passes the check but the stored duration is negative |
| Handlers.TrimSpace | internal/web/handlers.go:230 | the result is the middle of the text with only white space cut from both ends, and it neither starts nor ends with white space |
| Handlers.Split | internal/web/handlers.go:226 | the pieces contain no comma and joined with commas give back the text |
| Handlers.SplitJoin | internal/web/handlers.go:226 | splitting the comma-joined list of comma-free pieces gives back the pieces |
| Handlers.Tokens | internal/web/handlers.go:229-233 | blank pieces are skipped, so no token is empty and there are no more tokens than pieces |
| Handlers.TokensAreNonBlankTrims | internal/web/handlers.go:226-233 | the tokens are exactly the trimmed pieces that are not blank, in input order and with their multiplicity (the `Seqs.Filter` of the trimmed pieces) |
| Handlers.ParseDays | internal/web/handlers.go:229-243 | all tokens accepted exactly when each scans to a positive day count, giving those day counts as durations in input order; otherwise the first bad token is named |
| Handlers.ParseThresholds | internal/web/handlers.go:224-251 | a list with at least one token, all valid, gives the thresholds; an empty list is "At least one alert threshold is required" |
| Handlers.ApplyForm | internal/web/handlers.go:191-251 | the checks run in the order interval, webhook, retention, thresholds and the first failure names its field; on success given fields replace their settings, absent ones keep them, and the webhook is always replaced |
| Handlers.HandleUpdateConfig | internal/web/handlers.go:179-260 | a failed read is a 500; a rejected form is a 400 and saves nothing; an accepted form is passed to `Update`, whose failure is a 500 "Failed to update configuration: …" and whose success is the redirect; a redirect means the saved config is the form applied to the old one, with ID 1 and `UpdatedAt = now` |
| Handlers.NewDomain | internal/web/handlers.go:107-115 | the new domain carries the lookup's facts, was checked now and is next checked in 24 hours |
| Handlers.HandleAddDomain | internal/web/handlers.go:87-126 | an empty name is a 400 before any lookup; a failed lookup is a 400 and a failed insert a 500, both leaving the tables and timers alone; a redirect means the domain was stored and has a pending timer of exactly one day |

## Left out

- Concurrency: the scheduler's mutex, its worker-pool channel and its WaitGroup are not modelled. A check is one sequential step; a worker slot is an input (`slot`).
- `Stop`'s wait for in-flight checks and its 30-second timeout error are not modelled; only the timer part is.
- The goroutine race inside `queryWithTimeout` is not modelled; each attempt's outcome, including a timeout, is an input.
- Real clocks and sleeps are not modelled: `time.Now`, `time.AfterFunc` and `time.Sleep`. `now` is a parameter, one instant per call, and sleeps do not advance it.
- Network and foreign libraries are parameters: WHOIS lookups, the WHOIS parser, `time.Parse`, HTTP `POST`, UUID generation and the date rendering of alert messages.
- Building the webhook's JSON payload is not modelled; `json.Marshal` of a string map cannot fail, so its error branch is unreachable.
- `Duration.Hours()` floating-point arithmetic is replaced by exact integer division truncated toward zero. The two agree while durations stay well inside the range where a `float64` holds nanoseconds exactly.
- JSON text of nameserver lists (`Strings`) is left to parameters (`marshal`, `unmarshal`), because string escaping is outside the model. `[]int64` JSON is modelled in full.
- `json.Unmarshal`'s own error texts are not modelled; every decoding failure reports one fixed message.
- `fmt.Sscanf("%d")` is the parameter `scan`. The form handlers ignore its error text, and the threshold loop only asks whether scanning succeeded.
- `ParseForm` failures are not modelled; form values are plain strings, "" when absent. HTML rendering, templates, routing and the read-only GET handlers are out of scope.
- `handleDeleteDomain` is not modelled; the model covers only the input checks of `handleAddDomain` and of `handleUpdateConfig`.
- Database plumbing is not modelled: opening, migrating, closing, transactions and the foreign-key cascade from domains to alerts.
- The MySQL backend is not modelled. The program can also run on MySQL (`DB_DRIVER=mysql`, `NewDB`, the MySQL schema), and the model covers the SQLite backend only. Two behaviours differ there:
  - MySQL reports a duplicate key as "Error 1062 … Duplicate entry …", which has no "constraint failed", so `IsConstraintError` is false and a duplicate domain is reported as "failed to create domain: …". The model reaches that path only through a supplied `fault` text; its own uniqueness check emits SQLite's message.
  - MySQL refuses a `DELETE` whose subquery reads the same table, so the domains' retention delete would fail rather than delete nothing as `DomainRepository.DeleteOlderThanKeepsAll` states.
- SQL failures other than SQLite's uniqueness messages are supplied as `fault` parameters.
- Ordering of rows with equal sort keys is left unspecified, as SQL leaves it; the contracts speak only of membership and key order.
- `GetByDomainID`'s, `GetRecentAlerts`' and `GetFailedAlerts`' scan errors are not modelled separately from query errors: the row columns they scan are plain values.
- AlertRepository.HasAlertBeenSent: the `sql.ErrNoRows` branch is not modelled, because `COUNT(*)` always returns a row.
- DomainEntity.StringsValue: states only that a nil list is written like the empty list, because the JSON encoding of strings is a parameter.
- DomainRepository.DeleteOlderThan: its contract covers only the failure case; what a successful run removes (nothing) is stated by `DomainRepository.DeleteOlderThanKeepsAll`.
- Scheduler.CheckDomain: requires that a successful lookup returns the domain with the requested ID, as `GetByID` guarantees (`DomainRepository.GetByID`); the check itself never compares the IDs.

=== FILE: alert_entity.dfy ===
/** `internal/domain/alert.go`: one alert record. */
module AlertEntity {
  import opened GoTime

  /** An alert record: the domain it is about, the threshold it was raised for,
      the expiration date it reported, when it was sent and how delivery went. */
  datatype Alert = Alert(
    id: string,
    domainId: string,
    domainName: string,
    threshold: Int64,
    expirationDate: Time,
    sentAt: Time,
    success: bool,
    errorMessage: string)

  function GetThreshold(a: Alert): Duration {
    a.threshold
  }

  /** Setting the threshold is undone by reading it back, and touches nothing else. */
  function SetThreshold(a: Alert, d: Duration): (r: Alert)
    ensures GetThreshold(r) == d
    ensures r.(threshold := a.threshold) == a
  {
    a.(threshold := d)
  }

  /** Whole days from sending to expiration, truncated toward zero: fixed when
      the alert is written, whatever the clock says later. */
  function DaysUntilExpiration(a: Alert): (n: int)
    ensures var d := Sub(a.expirationDate, a.sentAt);
      (d >= 0 ==> 0 <= n * Day <= d < n * Day + Day) &&
      (d < 0 ==> n * Day - Day < d <= n * Day <= 0)
    ensures a.expirationDate >= a.sentAt ==> n >= 0
    ensures a.expirationDate <= a.sentAt ==> n <= 0
  {
    WholeDays(Sub(a.expirationDate, a.sentAt))
  }
}

=== FILE: alert_repository.dfy ===
/** `internal/repository/alert.go`: the `alerts` table as a sequence of rows
    in insertion order. A database failure of a statement is supplied as a
    `fault` (`Some(message)`); the SQL itself is restated as filters and sorts. */
module AlertRepository {
  import opened Wrappers
  import opened GoTime
  import opened AlertEntity
  import Seqs

  /** The SQLite message for a second row with the same primary key. */
  const DuplicateId: string := "UNIQUE constraint failed: alerts.id"

  /** `result` holds exactly the rows of `rows` that satisfy `p`, each as often. */
  ghost predicate ExactlyMatching(result: seq<Alert>, rows: seq<Alert>, p: Alert -> bool) {
    forall a :: multiset(result)[a] == if p(a) then multiset(rows)[a] else 0
  }

  /** `ORDER BY sent_at DESC`. */
  ghost predicate NewestFirst(result: seq<Alert>) {
    forall i, j :: 0 <= i < j < |result| ==> result[i].sentAt >= result[j].sentAt
  }

  /** `Create(alert)`: an empty ID is replaced by `freshId` (a new UUID), and the
      row is inserted; the only uniqueness the table enforces is on the ID. */
  function Create(rows: seq<Alert>, a: Alert, freshId: string, fault: Option<string>): (r: Result<(seq<Alert>, Alert)>)
    ensures var stored := a.(id := if a.id == "" then freshId else a.id);
      && (r.Ok? <==> fault.None? && forall x :: x in rows ==> x.id != stored.id)
      && (r.Ok? ==> r.value.1 == stored && r.value.0 == rows + [stored])
      && (r.Err? && fault.Some? ==> r.msg == Wrap("failed to create alert", fault.value))
      && (r.Err? && fault.None? ==> r.msg == Wrap("failed to create alert", DuplicateId))
  {
    var stored := a.(id := if a.id == "" then freshId else a.id);
    if fault.Some? then Err(Wrap("failed to create alert", fault.value))
    else if exists x :: x in rows && x.id == stored.id then Err(Wrap("failed to create alert", DuplicateId))
    else Ok((rows + [stored], stored))
  }

  /** `SELECT COUNT(*) FROM alerts WHERE domain_id = ? AND threshold = ?`. */
  function CountSent(rows: seq<Alert>, domainId: string, threshold: Duration): (n: nat)
    ensures n > 0 <==> exists i :: 0 <= i < |rows| && rows[i].domainId == domainId && rows[i].threshold == threshold
    ensures n <= |rows|
  {
    if |rows| == 0 then 0
    else
      var rest := CountSent(rows[1..], domainId, threshold);
      assert forall i :: 1 <= i < |rows| ==> rows[i] == rows[1..][i - 1];
      if rows[0].domainId == domainId && rows[0].threshold == threshold then rest + 1 else rest
  }

  /** `HasAlertBeenSent(domainID, threshold)`: whether any attempt was recorded
      for the pair, successful or not. (`COUNT(*)` always yields a row, so the
      `sql.ErrNoRows` branch is unreachable and not modelled.) */
  function HasAlertBeenSent(rows: seq<Alert>, domainId: string, threshold: Duration, fault: Option<string>): (r: Result<bool>)
    ensures fault.Some? ==> r == Err(Wrap("failed to check if alert was sent", fault.value))
    ensures fault.None? ==> r.Ok? && (r.value <==> exists a :: a in rows && a.domainId == domainId && a.threshold == threshold)
  {
    if fault.Some? then Err(Wrap("failed to check if alert was sent", fault.value))
    else Ok(CountSent(rows, domainId, threshold) > 0)
  }

  /** The shared shape of the three listing queries: a `WHERE` filter, then
      newest first; a failure is wrapped with the query's own prefix. */
  function SelectNewestFirst(rows: seq<Alert>, p: Alert -> bool, fault: Option<string>, prefix: string): (r: Result<seq<Alert>>)
    ensures fault.Some? ==> r == Err(Wrap(prefix, fault.value))
    ensures fault.None? ==> r.Ok? && ExactlyMatching(r.value, rows, p) && NewestFirst(r.value)
  {
    if fault.Some? then Err(Wrap(prefix, fault.value))
    else
      var result := Seqs.SortBy(Seqs.Filter(rows, p), (a: Alert) => -a.sentAt);
      assert forall i, j :: 0 <= i < j < |result| ==> -result[i].sentAt <= -result[j].sentAt;
      Ok(result)
  }

  /** `GetByDomainID(domainID)`. */
  function GetByDomainID(rows: seq<Alert>, domainId: string, fault: Option<string>): (r: Result<seq<Alert>>)
    ensures fault.Some? ==> r == Err(Wrap("failed to get alerts for domain", fault.value))
    ensures fault.None? ==> r.Ok? && NewestFirst(r.value)
    ensures fault.None? ==> forall a :: multiset(r.value)[a] == if a.domainId == domainId then multiset(rows)[a] else 0
  {
    SelectNewestFirst(rows, (a: Alert) => a.domainId == domainId, fault, "failed to get alerts for domain")
  }

  /** `GetRecentAlerts(since)`: the records sent at or after `since`. */
  function GetRecentAlerts(rows: seq<Alert>, since: Time, fault: Option<string>): (r: Result<seq<Alert>>)
    ensures fault.Some? ==> r == Err(Wrap("failed to get recent alerts", fault.value))
    ensures fault.None? ==> r.Ok? && NewestFirst(r.value)
    ensures fault.None? ==> forall a :: multiset(r.value)[a] == if a.sentAt >= since then multiset(rows)[a] else 0
  {
    SelectNewestFirst(rows, (a: Alert) => a.sentAt >= since, fault, "failed to get recent alerts")
  }

  /** `GetFailedAlerts()`: the records whose delivery failed. */
  function GetFailedAlerts(rows: seq<Alert>, fault: Option<string>): (r: Result<seq<Alert>>)
    ensures fault.Some? ==> r == Err(Wrap("failed to get failed alerts", fault.value))
    ensures fault.None? ==> r.Ok? && NewestFirst(r.value)
    ensures fault.None? ==> forall a :: multiset(r.value)[a] == if !a.success then multiset(rows)[a] else 0
  {
    SelectNewestFirst(rows, (a: Alert) => !a.success, fault, "failed to get failed alerts")
  }

  /** `DeleteOlderThan(cutoff)`: removes the records sent before `cutoff` and
      keeps every other one. `execFault` fails the `DELETE` (nothing
      is removed); `rowsFault` fails the later `RowsAffected` call, after the
      rows are already gone. Returns the table and the error. */
  function DeleteOlderThan(rows: seq<Alert>, cutoff: Time, execFault: Option<string>, rowsFault: Option<string>): (r: (seq<Alert>, Option<string>))
    ensures execFault.Some? ==> r == (rows, Some(Wrap("failed to delete old alerts", execFault.value)))
    ensures execFault.None? ==> forall a :: multiset(r.0)[a] == if a.sentAt >= cutoff then multiset(rows)[a] else 0
    ensures execFault.None? ==> r.1 == if rowsFault.Some? then Some(Wrap("failed to get rows affected", rowsFault.value)) else None
  {
    if execFault.Some? then (rows, Some(Wrap("failed to delete old alerts", execFault.value)))
    else
      var kept := Seqs.Filter(rows, (a: Alert) => a.sentAt >= cutoff);
      if rowsFault.Some? then (kept, Some(Wrap("failed to get rows affected", rowsFault.value)))
      else (kept, None)
  }

  /** After a record is created, the dedup check reports its pair as sent. */
  lemma CreateThenSent(rows: seq<Alert>, a: Alert, freshId: string)
    requires Create(rows, a, freshId, None).Ok?
    ensures HasAlertBeenSent(Create(rows, a, freshId, None).value.0, a.domainId, a.threshold, None) == Ok(true)
  {
    var rows' := Create(rows, a, freshId, None).value.0;
    assert rows'[|rows|] in rows';
  }

  /** Nothing stops a second record for a (domain, threshold) pair already sent:
      the insert itself only checks the ID. */
  lemma CreateAllowsRepeatedPair(rows: seq<Alert>, a: Alert, freshId: string)
    requires HasAlertBeenSent(rows, a.domainId, a.threshold, None) == Ok(true)
    requires a.id == "" && forall x :: x in rows ==> x.id != freshId
    ensures Create(rows, a, freshId, None).Ok?
  {
  }
}

=== FILE: alert_service.dfy ===
/** `internal/alert/service.go`: deciding which thresholds a domain has
    crossed, recording one alert per (domain, threshold), and delivering the
    message to the webhook with bounded retries. The clock is the single
    instant `now`; the webhook's answers, the database's failures and the new
    record IDs are supplied by an `Env`. */
module AlertService {
  import opened Wrappers
  import opened GoTime
  import opened Decimal
  import opened AlertEntity
  import opened DomainEntity
  import ConfigEntity
  import ConfigRepository
  import AlertRepository
  import Retry
  import Db

  /** What one webhook `POST` did: a transport error, or an HTTP status. */
  datatype PostOutcome = Transport(err: string) | Status(code: int)

  /** `sendToWebhook`: only a 2xx status is a delivery. */
  function SendToWebhook(outcome: PostOutcome): (r: Result<()>)
    ensures outcome.Status? ==> (r.Ok? <==> 200 <= outcome.code < 300)
    ensures outcome.Transport? ==> r == Err(Wrap("failed to send webhook", outcome.err))
    ensures outcome.Status? && r.Err? ==> r.msg == "webhook returned status " + IntToString(outcome.code)
  {
    match outcome
    case Transport(e) => Err(Wrap("failed to send webhook", e))
    case Status(code) =>
      if code < 200 || code >= 300 then Err("webhook returned status " + IntToString(code)) else Ok(())
  }

  /** The title line as the source file spells it (a bell emoji whose UTF-8
      bytes were re-read as Windows-1252 text). */
  const Title: string := "\U{F0}\U{178}\U{201D}\U{201D} Domain Expiration Alert\n\n"
  const Closing: string := "Please renew this domain to avoid service disruption."

  /** `int(threshold.Hours() / 24)`, with the floating-point path replaced by
      exact truncating division. */
  function ThresholdDays(a: Alert): int {
    WholeDays(GetThreshold(a))
  }

  /** `FormatAlertMessage(alert)`, with the `2006-01-02` rendering of a date
      supplied as `formatDate`. The message names the domain, the expiration
      date, the days remaining and the threshold in days. */
  function FormatAlertMessage(a: Alert, formatDate: Time -> string): (msg: string)
    ensures Db.IsSubstring(msg, a.domainName)
    ensures Db.IsSubstring(msg, formatDate(a.expirationDate))
    ensures Db.IsSubstring(msg, "Days Remaining: " + IntToString(AlertEntity.DaysUntilExpiration(a)) + "\n")
    ensures Db.IsSubstring(msg, "Alert Threshold: " + IntToString(ThresholdDays(a)) + " days")
  {
    var date := formatDate(a.expirationDate);
    var days := "Days Remaining: " + IntToString(AlertEntity.DaysUntilExpiration(a)) + "\n";
    var threshold := "Alert Threshold: " + IntToString(ThresholdDays(a)) + " days";
    var s1 := (Title + "Domain: ") + a.domainName;
    var s2 := (s1 + "\nExpiration Date: ") + date;
    var s3 := (s2 + "\n") + days;
    var s4 := s3 + threshold;
    var msg := s4 + ("\n\n" + Closing);
    FoundAtEnd(Title + "Domain: ", a.domainName);
    FoundAtEnd(s1 + "\nExpiration Date: ", date);
    FoundAtEnd(s2 + "\n", days);
    FoundAtEnd(s3, threshold);
    FoundInPrefix(s1, s2, a.domainName);
    FoundInPrefix(s2, s3, a.domainName);
    FoundInPrefix(s2, s3, date);
    FoundInPrefix(s3, s4, a.domainName);
    FoundInPrefix(s3, s4, date);
    FoundInPrefix(s3, s4, days);
    FoundInPrefix(s4, msg, a.domainName);
    FoundInPrefix(s4, msg, date);
    FoundInPrefix(s4, msg, days);
    FoundInPrefix(s4, msg, threshold);
    msg
  }

  lemma FoundAtEnd(pre: string, sub: string)
    ensures Db.IsSubstring(pre + sub, sub)
  {
    var s := pre + sub;
    assert s[|pre|..|pre| + |sub|] == sub;
    assert Db.OccursAt(s, sub, |pre|);
  }

  /** What occurs in a prefix occurs in the whole. */
  lemma FoundInPrefix(p: string, s: string, sub: string)
    requires |p| <= |s| && s[..|p|] == p
    requires Db.IsSubstring(p, sub)
    ensures Db.IsSubstring(s, sub)
  {
    var i: nat :| Db.OccursAt(p, sub, i);
    assert s[i..i + |sub|] == p[i..i + |sub|];
    assert Db.OccursAt(s, sub, i);
  }

  /** The outcome of `SendAlert`: its error, how many `POST`s were made, the
      durations slept between them and the message posted. */
  datatype Delivery = Delivery(err: Option<string>, posts: nat, sleeps: seq<Duration>, message: string)

  const MaxPosts: int := 3

  function PostAttempt(post: nat -> PostOutcome): nat -> Result<()> {
    (k: nat) => SendToWebhook(post(k))
  }

  /** `SendAlert(alert, webhookURL)`, where `post(k)` is the answer to the
      `k`-th `POST`. No webhook means no `POST` at all; otherwise up to three
      `POST`s, stopping at the first delivery, sleeping 1s and then 2s between
      them, and reporting the last failure after the third. */
  function SendAlert(a: Alert, webhook: string, post: nat -> PostOutcome, formatDate: Time -> string): (r: Delivery)
    ensures webhook == "" ==> r.err == Some("no webhook URL configured") && r.posts == 0 && r.sleeps == []
    ensures webhook != "" ==> 1 <= r.posts <= 3 && r.message == FormatAlertMessage(a, formatDate)
    ensures webhook != "" ==> (r.err.None? <==> SendToWebhook(post(r.posts - 1)).Ok?)
    ensures webhook != "" ==> forall k :: 0 <= k < r.posts - 1 ==> SendToWebhook(post(k)).Err?
    ensures webhook != "" && r.err.Some? ==>
      r.posts == 3 && r.err == Some(Wrap("failed after 3 attempts", SendToWebhook(post(2)).msg))
    ensures webhook != "" ==> r.sleeps == Retry.Backoffs(r.posts - 1)
    ensures r.err.Some? ==> r.err.value != ""
  {
    if webhook == "" then Delivery(Some("no webhook URL configured"), 0, [], "")
    else
      var message := FormatAlertMessage(a, formatDate);
      var run := Retry.Attempts(MaxPosts, PostAttempt(post));
      var err := if run.value.Some? then None else Some(Wrap("failed after 3 attempts", run.lastErr.value));
      assert run.value.None? ==> PostAttempt(post)(2).Err?;
      Delivery(err, run.attempts, run.sleeps, message)
  }

  /** The two sleeps of a failed delivery are one and two seconds. */
  lemma DeliverySleeps(a: Alert, webhook: string, post: nat -> PostOutcome, formatDate: Time -> string)
    requires webhook != "" && SendAlert(a, webhook, post, formatDate).err.Some?
    ensures SendAlert(a, webhook, post, formatDate).sleeps == [Second, 2 * Second]
  {
    Retry.BackoffDoubles(1);
    assert Retry.Pow2(1) == 2;
  }

  /** The domain has `remaining` time left and it is within `threshold`. */
  predicate Crosses(remaining: Duration, threshold: Duration) {
    remaining <= threshold && remaining > 0
  }

  /** The record `EvaluateAlerts` builds before delivery. */
  function NewAlert(d: Domain, threshold: Duration, now: Time): Alert {
    SetThreshold(Alert("", d.id, d.name, 0, d.expirationDate, now, false, ""), threshold)
  }

  /** The record as saved: a failed delivery keeps its error text. */
  function Recorded(a: Alert, delivery: Delivery): Alert {
    if delivery.err.Some? then a.(success := false, errorMessage := delivery.err.value)
    else a.(success := true)
  }

  /** The collaborators' behaviour during one evaluation. Per-threshold
      answers are indexed by the threshold's position in the configured list. */
  datatype Env = Env(
    configSelectFault: Option<string>,
    configInsertFault: Option<string>,
    dedupFault: nat -> Option<string>,
    post: (nat, nat) -> PostOutcome,
    freshId: nat -> string,
    createFault: nat -> Option<string>,
    formatDate: Time -> string)

  /** The database behaves: no statement fails and every new ID is unused. */
  ghost predicate Healthy(env: Env, rows: seq<Alert>) {
    && env.configSelectFault.None? && env.configInsertFault.None?
    && (forall i :: env.dedupFault(i).None? && env.createFault(i).None?)
    && (forall i, k :: 0 <= k < |rows| ==> rows[k].id != env.freshId(i))
    && (forall i, j :: i != j ==> env.freshId(i) != env.freshId(j))
  }

  function DedupError(fault: string): string {
    Wrap("failed to check if alert was sent", Wrap("failed to check if alert was sent", fault))
  }

  /** Some record in `rows` is for this domain and threshold. */
  ghost predicate Covered(rows: seq<Alert>, domainId: string, threshold: Duration) {
    exists k :: 0 <= k < |rows| && rows[k].domainId == domainId && rows[k].threshold == threshold
  }

  /** Every record from index `base` on was made by this evaluation: it is for
      `d`, sent at `now`, for a crossed threshold of `ts`, the first record of
      its (domain, threshold) pair, and marked successful exactly when it
      carries no error text. */
  ghost predicate NewRecords(rows: seq<Alert>, base: nat, d: Domain, now: Time, remaining: Duration, ts: seq<Duration>) {
    forall j :: base <= j < |rows| ==>
      && rows[j].domainId == d.id && rows[j].domainName == d.name
      && rows[j].expirationDate == d.expirationDate && rows[j].sentAt == now
      && rows[j].threshold in ts && Crosses(remaining, rows[j].threshold)
      && (rows[j].success <==> rows[j].errorMessage == "")
      && (forall k :: 0 <= k < j ==> !(rows[k].domainId == d.id && rows[k].threshold == rows[j].threshold))
  }

  /** The loop over the thresholds from position `i` on. */
  function EvalFrom(ts: seq<Duration>, i: nat, rows: seq<Alert>, d: Domain, remaining: Duration,
                    webhook: string, now: Time, env: Env): (r: (seq<Alert>, Option<string>))
    requires i <= |ts|
    ensures |rows| <= |r.0| && r.0[..|rows|] == rows
    ensures NewRecords(r.0, |rows|, d, now, remaining, ts[i..])
    ensures remaining <= 0 ==> r == (rows, None)
    decreases |ts| - i
  {
    if i == |ts| then (rows, None)
    else
      var t := ts[i];
      if !Crosses(remaining, t) then
        var r := EvalFrom(ts, i + 1, rows, d, remaining, webhook, now, env);
        SuffixGrows(ts, i, r.0, |rows|, d, now, remaining);
        r
      else
        var sent := AlertRepository.HasAlertBeenSent(rows, d.id, t, env.dedupFault(i));
        if sent.Err? then (rows, Some(Wrap("failed to check if alert was sent", sent.msg)))
        else if sent.value then
          var r := EvalFrom(ts, i + 1, rows, d, remaining, webhook, now, env);
          SuffixGrows(ts, i, r.0, |rows|, d, now, remaining);
          r
        else
          var delivery := SendAlert(NewAlert(d, t, now), webhook, (k: nat) => env.post(i, k), env.formatDate);
          var a := Recorded(NewAlert(d, t, now), delivery);
          var created := AlertRepository.Create(rows, a, env.freshId(i), env.createFault(i));
          if created.Err? then (rows, Some(Wrap("failed to save alert", created.msg)))
          else
            var rows1 := created.value.0;
            var r := EvalFrom(ts, i + 1, rows1, d, remaining, webhook, now, env);
            AppendedRecord(ts, i, rows, rows1, r.0, d, now, remaining);
            r
  }

  lemma SuffixGrows(ts: seq<Duration>, i: nat, rows: seq<Alert>, base: nat, d: Domain, now: Time, remaining: Duration)
    requires i < |ts|
    requires NewRecords(rows, base, d, now, remaining, ts[i + 1..])
    ensures NewRecords(rows, base, d, now, remaining, ts[i..])
  {
    assert forall t :: t in ts[i + 1..] ==> t in ts[i..];
  }

  lemma AppendedRecord(ts: seq<Duration>, i: nat, rows: seq<Alert>, rows1: seq<Alert>, rows2: seq<Alert>,
                       d: Domain, now: Time, remaining: Duration)
    requires i < |ts| && Crosses(remaining, ts[i])
    requires |rows1| == |rows| + 1 && rows1[..|rows|] == rows
    requires var a := rows1[|rows|];
      && a.domainId == d.id && a.domainName == d.name && a.expirationDate == d.expirationDate
      && a.sentAt == now && a.threshold == ts[i] && (a.success <==> a.errorMessage == "")
    requires forall k :: 0 <= k < |rows| ==> !(rows[k].domainId == d.id && rows[k].threshold == ts[i])
    requires |rows1| <= |rows2| && rows2[..|rows1|] == rows1
    requires NewRecords(rows2, |rows1|, d, now, remaining, ts[i + 1..])
    ensures |rows| <= |rows2| && rows2[..|rows|] == rows
    ensures NewRecords(rows2, |rows|, d, now, remaining, ts[i..])
  {
    assert rows2[..|rows|] == rows1[..|rows|];
    assert forall t :: t in ts[i + 1..] ==> t in ts[i..];
    assert ts[i] in ts[i..];
    forall k | 0 <= k < |rows|
      ensures rows2[k] == rows[k]
    {
      assert rows2[k] == rows2[..|rows|][k];
    }
    assert rows2[|rows|] == rows1[|rows|] by {
      assert rows2[|rows|] == rows2[..|rows1|][|rows|];
    }
  }

  /** The state `EvaluateAlerts` reads and writes: the config table and the
      alerts table. */
  datatype State = State(config: ConfigRepository.Table, alerts: seq<Alert>)

  /** `EvaluateAlerts(d)` at `now`. A config that cannot be read or created
      stops the evaluation with nothing written. Otherwise, with `ts` the
      configured thresholds, a record is added for a threshold only when the
      domain is within it, still unexpired, and no record of that (domain,
      threshold) pair exists; the record reports its own delivery; and a run
      that reports no error leaves every crossed threshold with a record. */
  function EvaluateAlerts(s: State, d: Domain, now: Time, env: Env): (r: (State, Option<string>))
    ensures |s.alerts| <= |r.0.alerts| && r.0.alerts[..|s.alerts|] == s.alerts
    ensures Sub(d.expirationDate, now) <= 0 ==> r.0.alerts == s.alerts
    ensures env.configSelectFault.Some? ==>
      r == (s, Some(Wrap("failed to get config", Wrap("failed to get config", env.configSelectFault.value))))
    ensures env.configSelectFault.None? && s.config.None? && env.configInsertFault.Some? ==>
      r == (s, Some(Wrap("failed to get config", Wrap("failed to create default config",
                                                      Wrap("failed to create config", env.configInsertFault.value)))))
    ensures env.configSelectFault.None? && s.config.Some? && ConfigRepository.FromRow(s.config.value).Err? ==>
      r.0 == s && r.1.Some?
    ensures var c := ConfigRepository.Get(s.config, now, env.configSelectFault, env.configInsertFault);
      c.Ok? ==>
        var ts := ConfigEntity.GetAlertThresholds(c.value.1);
        var remaining := Sub(d.expirationDate, now);
        && r.0.config == c.value.0
        && NewRecords(r.0.alerts, |s.alerts|, d, now, remaining, ts)
        && Delivered(r.0.alerts, |s.alerts|, d, now, c.value.1.googleChatWebhook, env, ts, 0)
        && (r.1.None? ==> forall t :: t in ts && Crosses(remaining, t) ==> Covered(r.0.alerts, d.id, t))
  {
    var got := ConfigRepository.Get(s.config, now, env.configSelectFault, env.configInsertFault);
    if got.Err? then (s, Some(Wrap("failed to get config", got.msg)))
    else
      var table := got.value.0;
      var config := got.value.1;
      var ts := ConfigEntity.GetAlertThresholds(config);
      var remaining := Sub(d.expirationDate, now);
      var r := EvalFrom(ts, 0, s.alerts, d, remaining, config.googleChatWebhook, now, env);
      EvalDelivers(ts, 0, s.alerts, d, remaining, config.googleChatWebhook, now, env);
      EvalCovers(ts, 0, s.alerts, d, remaining, config.googleChatWebhook, now, env);
      CoversEach(ts, r.0, d.id, remaining);
      (State(table, r.0), r.1)
  }

  /** Coverage stated by position is coverage of every listed threshold. */
  lemma CoversEach(ts: seq<Duration>, rows: seq<Alert>, id: string, remaining: Duration)
    ensures (forall j :: 0 <= j < |ts| && Crosses(remaining, ts[j]) ==> Covered(rows, id, ts[j])) ==>
      forall t :: t in ts && Crosses(remaining, t) ==> Covered(rows, id, t)
  {
    if forall j :: 0 <= j < |ts| && Crosses(remaining, ts[j]) ==> Covered(rows, id, ts[j]) {
      forall t | t in ts && Crosses(remaining, t) ensures Covered(rows, id, t) {
        var j :| 0 <= j < |ts| && ts[j] == t;
      }
    }
  }

  lemma CoveredExtends(rows: seq<Alert>, big: seq<Alert>, id: string, t: Duration)
    requires |rows| <= |big| && big[..|rows|] == rows
    requires Covered(rows, id, t)
    ensures Covered(big, id, t)
  {
    var k :| 0 <= k < |rows| && rows[k].domainId == id && rows[k].threshold == t;
    assert big[k] == big[..|rows|][k];
  }

  /** When the loop finishes without error, every crossed threshold has a
      record for the domain, made now or before. */
  lemma {:induction false} EvalCovers(ts: seq<Duration>, i: nat, rows: seq<Alert>, d: Domain, remaining: Duration,
                                      webhook: string, now: Time, env: Env)
    requires i <= |ts|
    ensures var r := EvalFrom(ts, i, rows, d, remaining, webhook, now, env);
      r.1.None? ==> forall j :: i <= j < |ts| && Crosses(remaining, ts[j]) ==> Covered(r.0, d.id, ts[j])
    decreases |ts| - i
  {
    var r := EvalFrom(ts, i, rows, d, remaining, webhook, now, env);
    if i < |ts| && r.1.None? {
      var t := ts[i];
      EvalCoversStep(ts, i, rows, d, remaining, webhook, now, env);
      if !Crosses(remaining, t) {
        EvalCovers(ts, i + 1, rows, d, remaining, webhook, now, env);
      } else {
        var sent := AlertRepository.HasAlertBeenSent(rows, d.id, t, env.dedupFault(i));
        if sent.value {
          EvalCovers(ts, i + 1, rows, d, remaining, webhook, now, env);
          var k :| 0 <= k < |rows| && rows[k].domainId == d.id && rows[k].threshold == t;
          CoveredExtends(rows, r.0, d.id, t);
        } else {
          var delivery := SendAlert(NewAlert(d, t, now), webhook, (k: nat) => env.post(i, k), env.formatDate);
          var a := Recorded(NewAlert(d, t, now), delivery);
          var rows1 := AlertRepository.Create(rows, a, env.freshId(i), env.createFault(i)).value.0;
          EvalCovers(ts, i + 1, rows1, d, remaining, webhook, now, env);
          assert rows1[|rows|].threshold == t && rows1[|rows|].domainId == d.id;
          CoveredExtends(rows1, r.0, d.id, t);
        }
      }
    }
  }

  /** One step of the loop, unfolded: what the result at `i` is in terms of
      the result at `i + 1`. */
  lemma EvalCoversStep(ts: seq<Duration>, i: nat, rows: seq<Alert>, d: Domain, remaining: Duration,
                       webhook: string, now: Time, env: Env)
    requires i < |ts|
    ensures var t := ts[i];
      var sent := AlertRepository.HasAlertBeenSent(rows, d.id, t, env.dedupFault(i));
      var delivery := SendAlert(NewAlert(d, t, now), webhook, (k: nat) => env.post(i, k), env.formatDate);
      var created := AlertRepository.Create(rows, Recorded(NewAlert(d, t, now), delivery), env.freshId(i), env.createFault(i));
      EvalFrom(ts, i, rows, d, remaining, webhook, now, env) ==
        if !Crosses(remaining, t) then EvalFrom(ts, i + 1, rows, d, remaining, webhook, now, env)
        else if sent.Err? then (rows, Some(Wrap("failed to check if alert was sent", sent.msg)))
        else if sent.value then EvalFrom(ts, i + 1, rows, d, remaining, webhook, now, env)
        else if created.Err? then (rows, Some(Wrap("failed to save alert", created.msg)))
        else EvalFrom(ts, i + 1, created.value.0, d, remaining, webhook, now, env)
  {
  }

  /** From position `i` on, the database answers every statement, and the IDs
      it hands out there are new to `rows` and distinct from each other. */
  ghost predicate FreshFrom(env: Env, rows: seq<Alert>, i: nat) {
    && (forall j :: env.dedupFault(j).None? && env.createFault(j).None?)
    && (forall j, k :: i <= j && 0 <= k < |rows| ==> rows[k].id != env.freshId(j))
    && (forall j, l :: j != l ==> env.freshId(j) != env.freshId(l))
  }

  /** With a healthy database the loop never stops on an error. */
  lemma {:induction false} EvalHealthy(ts: seq<Duration>, i: nat, rows: seq<Alert>, d: Domain, remaining: Duration,
                                       webhook: string, now: Time, env: Env)
    requires i <= |ts| && FreshFrom(env, rows, i)
    ensures EvalFrom(ts, i, rows, d, remaining, webhook, now, env).1.None?
    decreases |ts| - i
  {
    if i < |ts| {
      var t := ts[i];
      EvalCoversStep(ts, i, rows, d, remaining, webhook, now, env);
      var sent := AlertRepository.HasAlertBeenSent(rows, d.id, t, env.dedupFault(i));
      if !Crosses(remaining, t) || sent.value {
        EvalHealthy(ts, i + 1, rows, d, remaining, webhook, now, env);
      } else {
        var delivery := SendAlert(NewAlert(d, t, now), webhook, (k: nat) => env.post(i, k), env.formatDate);
        var a := Recorded(NewAlert(d, t, now), delivery);
        assert a.id == "";
        forall x | x in rows
          ensures x.id != env.freshId(i)
        {
          var k :| 0 <= k < |rows| && rows[k] == x;
        }
        var created := AlertRepository.Create(rows, a, env.freshId(i), env.createFault(i));
        var rows1 := created.value.0;
        assert rows1 == rows + [a.(id := env.freshId(i))];
        EvalHealthy(ts, i + 1, rows1, d, remaining, webhook, now, env);
      }
    }
  }

  /** Thresholds that are already covered are skipped without a write. */
  lemma {:induction false} EvalSkipsCovered(ts: seq<Duration>, i: nat, rows: seq<Alert>, d: Domain, remaining: Duration,
                                            webhook: string, now: Time, env: Env)
    requires i <= |ts|
    requires forall j :: env.dedupFault(j).None?
    requires forall j :: i <= j < |ts| && Crosses(remaining, ts[j]) ==> Covered(rows, d.id, ts[j])
    ensures EvalFrom(ts, i, rows, d, remaining, webhook, now, env) == (rows, None)
    decreases |ts| - i
  {
    if i < |ts| {
      EvalCoversStep(ts, i, rows, d, remaining, webhook, now, env);
      EvalSkipsCovered(ts, i + 1, rows, d, remaining, webhook, now, env);
      if Crosses(remaining, ts[i]) {
        var k :| 0 <= k < |rows| && rows[k].domainId == d.id && rows[k].threshold == ts[i];
        assert rows[k] in rows;
      }
    }
  }

  /** With a healthy database and a readable (or absent) config row, an
      evaluation never reports an error. */
  lemma EvaluateHealthy(s: State, d: Domain, now: Time, env: Env)
    requires Healthy(env, s.alerts)
    requires s.config.Some? ==> ConfigRepository.FromRow(s.config.value).Ok?
    ensures EvaluateAlerts(s, d, now, env).1.None?
  {
    var got := ConfigRepository.Get(s.config, now, env.configSelectFault, env.configInsertFault);
    var config := got.value.1;
    EvalHealthy(ConfigEntity.GetAlertThresholds(config), 0, s.alerts, d, Sub(d.expirationDate, now),
                config.googleChatWebhook, now, env);
  }

  /** A second evaluation of the same domain at the same instant, after one
      that succeeded, records nothing, sends nothing and reports no error:
      the deduplication check sees every crossed threshold. */
  lemma EvaluateTwice(s: State, d: Domain, now: Time, env: Env, env2: Env)
    requires EvaluateAlerts(s, d, now, env).1.None?
    requires env2.configSelectFault.None? && forall j :: env2.dedupFault(j).None?
    ensures var first := EvaluateAlerts(s, d, now, env).0;
      EvaluateAlerts(first, d, now, env2) == (first, None)
  {
    var got := ConfigRepository.Get(s.config, now, env.configSelectFault, env.configInsertFault);
    var table := got.value.0;
    var config := got.value.1;
    var ts := ConfigEntity.GetAlertThresholds(config);
    var remaining := Sub(d.expirationDate, now);
    var r := EvalFrom(ts, 0, s.alerts, d, remaining, config.googleChatWebhook, now, env);
    var first := State(table, r.0);
    if s.config.None? {
      ConfigRepository.RowRoundTrip(ConfigRepository.DefaultConfig(now));
    }
    var got2 := ConfigRepository.Get(first.config, now, env2.configSelectFault, env2.configInsertFault);
    assert got2 == Ok((table, config));
    EvalCovers(ts, 0, s.alerts, d, remaining, config.googleChatWebhook, now, env);
    EvalSkipsCovered(ts, 0, r.0, d, remaining, config.googleChatWebhook, now, env2);
  }

  /** The error that stops the loop at the threshold in position `j`. */
  ghost predicate StepError(env: Env, j: nat, msg: string) {
    || (env.dedupFault(j).Some? && msg == DedupError(env.dedupFault(j).value))
    || (env.createFault(j).Some? && msg == Wrap("failed to save alert", Wrap("failed to create alert", env.createFault(j).value)))
    || msg == Wrap("failed to save alert", Wrap("failed to create alert", AlertRepository.DuplicateId))
  }

  /** An error stops the loop at some crossed threshold `j`: it is that
      threshold's deduplication or save failure, and the records made before
      it are for thresholds ahead of `j` and stay. */
  lemma {:induction false} EvalError(ts: seq<Duration>, i: nat, rows: seq<Alert>, d: Domain, remaining: Duration,
                                     webhook: string, now: Time, env: Env)
    requires i <= |ts|
    ensures var r := EvalFrom(ts, i, rows, d, remaining, webhook, now, env);
      r.1.Some? ==> exists j :: i <= j < |ts| && Crosses(remaining, ts[j]) && StepError(env, j, r.1.value)
                                && NewRecords(r.0, |rows|, d, now, remaining, ts[i..j])
    decreases |ts| - i
  {
    var r := EvalFrom(ts, i, rows, d, remaining, webhook, now, env);
    if i < |ts| && r.1.Some? {
      var t := ts[i];
      EvalCoversStep(ts, i, rows, d, remaining, webhook, now, env);
      var sent := AlertRepository.HasAlertBeenSent(rows, d.id, t, env.dedupFault(i));
      if !Crosses(remaining, t) || (sent.Ok? && sent.value) {
        EvalError(ts, i + 1, rows, d, remaining, webhook, now, env);
        var j :| i + 1 <= j < |ts| && Crosses(remaining, ts[j]) && StepError(env, j, r.1.value)
                 && NewRecords(r.0, |rows|, d, now, remaining, ts[i + 1..j]);
        NewRecordsWiden(r.0, |rows|, d, now, remaining, ts[i + 1..j], ts[i..j]);
      } else if sent.Err? {
        assert StepError(env, i, r.1.value);
        assert r.0 == rows;
        assert NewRecords(r.0, |rows|, d, now, remaining, ts[i..i]);
      } else {
        var delivery := SendAlert(NewAlert(d, t, now), webhook, (k: nat) => env.post(i, k), env.formatDate);
        var a := Recorded(NewAlert(d, t, now), delivery);
        var created := AlertRepository.Create(rows, a, env.freshId(i), env.createFault(i));
        if created.Err? {
          assert StepError(env, i, r.1.value);
          assert NewRecords(r.0, |rows|, d, now, remaining, ts[i..i]);
        } else {
          var rows1 := created.value.0;
          EvalError(ts, i + 1, rows1, d, remaining, webhook, now, env);
          var j :| i + 1 <= j < |ts| && Crosses(remaining, ts[j]) && StepError(env, j, r.1.value)
                   && NewRecords(r.0, |rows1|, d, now, remaining, ts[i + 1..j]);
          CreatedBefore(ts, i, j, rows, rows1, r.0, d, now, remaining);
        }
      }
    }
  }

  /** The record made at position `i` joins the records made up to `j`. */
  lemma CreatedBefore(ts: seq<Duration>, i: nat, j: nat, rows: seq<Alert>, rows1: seq<Alert>, rows2: seq<Alert>,
                      d: Domain, now: Time, remaining: Duration)
    requires i < j <= |ts| && Crosses(remaining, ts[i])
    requires |rows1| == |rows| + 1 && rows1[..|rows|] == rows
    requires var a := rows1[|rows|];
      && a.domainId == d.id && a.domainName == d.name && a.expirationDate == d.expirationDate
      && a.sentAt == now && a.threshold == ts[i] && (a.success <==> a.errorMessage == "")
    requires forall x :: x in rows ==> !(x.domainId == d.id && x.threshold == ts[i])
    requires |rows1| <= |rows2| && rows2[..|rows1|] == rows1
    requires NewRecords(rows2, |rows1|, d, now, remaining, ts[i + 1..j])
    ensures NewRecords(rows2, |rows|, d, now, remaining, ts[i..j])
  {
    var sub := ts[i..j];
    assert sub[1..] == ts[i + 1..j];
    forall k | 0 <= k < |rows| ensures !(rows[k].domainId == d.id && rows[k].threshold == sub[0]) {
      assert rows[k] in rows;
    }
    AppendedRecord(sub, 0, rows, rows1, rows2, d, now, remaining);
    assert sub[0..] == sub;
  }

  lemma NewRecordsWiden(rows: seq<Alert>, base: nat, d: Domain, now: Time, remaining: Duration,
                        ts: seq<Duration>, wider: seq<Duration>)
    requires NewRecords(rows, base, d, now, remaining, ts)
    requires forall x :: x in ts ==> x in wider
    ensures NewRecords(rows, base, d, now, remaining, wider)
  {
  }

  /** The error `SendAlert` reports for the threshold in position `p` of the
      configured list, whose `POST`s are answered by `env.post(p, _)`. */
  function DeliveryError(d: Domain, t: Duration, now: Time, webhook: string, env: Env, p: nat): Option<string> {
    SendAlert(NewAlert(d, t, now), webhook, (k: nat) => env.post(p, k), env.formatDate).err
  }

  /** A saved record reports its delivery: successful with no error text when
      the webhook took it, failed with the delivery's error text otherwise. */
  predicate Reports(a: Alert, err: Option<string>) {
    && (a.success <==> err.None?)
    && a.errorMessage == (if err.Some? then err.value else "")
  }

  /** The first position at or after `i` where `ts` lists `t`, or `|ts|`
      when there is none. */
  function FirstIndex(ts: seq<Duration>, i: nat, t: Duration): (p: nat)
    requires i <= |ts|
    ensures i <= p <= |ts|
    ensures p < |ts| ==> ts[p] == t
    ensures forall q :: i <= q < p ==> ts[q] != t
    decreases |ts| - i
  {
    if i == |ts| || ts[i] == t then i else FirstIndex(ts, i + 1, t)
  }

  /** Every record from index `base` on is for a threshold listed in `ts` at
      or after `i`, and reports the delivery attempted at the first position
      that lists it: a threshold listed twice is delivered at its first place. */
  ghost predicate Delivered(rows: seq<Alert>, base: nat, d: Domain, now: Time, webhook: string, env: Env,
                            ts: seq<Duration>, i: nat)
    requires i <= |ts|
  {
    forall j :: base <= j < |rows| ==>
      var p := FirstIndex(ts, i, rows[j].threshold);
      p < |ts| && Reports(rows[j], DeliveryError(d, ts[p], now, webhook, env, p))
  }

  /** Each record the loop saves carries the outcome of its own delivery:
      `success` exactly when `SendAlert` returned no error, and that error's
      text otherwise. */
  lemma {:induction false} EvalDelivers(ts: seq<Duration>, i: nat, rows: seq<Alert>, d: Domain, remaining: Duration,
                                        webhook: string, now: Time, env: Env)
    requires i <= |ts|
    ensures var r := EvalFrom(ts, i, rows, d, remaining, webhook, now, env);
      Delivered(r.0, |rows|, d, now, webhook, env, ts, i)
    decreases |ts| - i
  {
    var r := EvalFrom(ts, i, rows, d, remaining, webhook, now, env);
    if i < |ts| {
      var t := ts[i];
      EvalCoversStep(ts, i, rows, d, remaining, webhook, now, env);
      var sent := AlertRepository.HasAlertBeenSent(rows, d.id, t, env.dedupFault(i));
      var created := AlertRepository.Create(rows, Recorded(NewAlert(d, t, now), SendAlert(NewAlert(d, t, now), webhook, (k: nat) => env.post(i, k), env.formatDate)), env.freshId(i), env.createFault(i));
      if !Crosses(remaining, t) {
        EvalDelivers(ts, i + 1, rows, d, remaining, webhook, now, env);
        NotListedAgain(r.0, |rows|, d, now, remaining, ts[i + 1..], t);
        DeliveredWiden(r.0, |rows|, d, now, webhook, env, ts, i);
      } else if sent.Ok? && sent.value {
        EvalDelivers(ts, i + 1, rows, d, remaining, webhook, now, env);
        var x :| x in rows && x.domainId == d.id && x.threshold == t;
        var k :| 0 <= k < |rows| && rows[k] == x;
        assert r.0[k] == r.0[..|rows|][k];
        NotListedAgain(r.0, |rows|, d, now, remaining, ts[i + 1..], t);
        DeliveredWiden(r.0, |rows|, d, now, webhook, env, ts, i);
      } else if sent.Ok? && created.Ok? {
        var rows1 := created.value.0;
        EvalDelivers(ts, i + 1, rows1, d, remaining, webhook, now, env);
        DeliveredAppend(ts, i, rows, rows1, r.0, d, now, remaining, webhook, env);
      }
    }
  }

  /** A threshold that is not crossed, or whose pair already has a record
      before `base`, gets no new record from `base` on. */
  lemma NotListedAgain(rows: seq<Alert>, base: nat, d: Domain, now: Time, remaining: Duration,
                       ts: seq<Duration>, t: Duration)
    requires NewRecords(rows, base, d, now, remaining, ts)
    requires !Crosses(remaining, t) ||
             exists k :: 0 <= k < base && k < |rows| && rows[k].domainId == d.id && rows[k].threshold == t
    ensures forall j :: base <= j < |rows| ==> rows[j].threshold != t
  {
  }

  lemma DeliveredWiden(rows: seq<Alert>, base: nat, d: Domain, now: Time, webhook: string, env: Env,
                       ts: seq<Duration>, i: nat)
    requires i < |ts|
    requires Delivered(rows, base, d, now, webhook, env, ts, i + 1)
    requires forall j :: base <= j < |rows| ==> rows[j].threshold != ts[i]
    ensures Delivered(rows, base, d, now, webhook, env, ts, i)
  {
    forall j | base <= j < |rows|
      ensures FirstIndex(ts, i, rows[j].threshold) == FirstIndex(ts, i + 1, rows[j].threshold)
    {
    }
  }

  /** The record at `base` joins the records after it. */
  lemma DeliveredCons(rows: seq<Alert>, base: nat, d: Domain, now: Time, webhook: string, env: Env,
                      ts: seq<Duration>, i: nat)
    requires base < |rows| && i <= |ts|
    requires var p := FirstIndex(ts, i, rows[base].threshold);
      p < |ts| && Reports(rows[base], DeliveryError(d, ts[p], now, webhook, env, p))
    requires Delivered(rows, base + 1, d, now, webhook, env, ts, i)
    ensures Delivered(rows, base, d, now, webhook, env, ts, i)
  {
  }

  /** The record built at position `i` is for `ts[i]` and reports its delivery. */
  lemma RecordReports(d: Domain, t: Duration, now: Time, webhook: string, env: Env, i: nat, id: string)
    ensures var a := Recorded(NewAlert(d, t, now), SendAlert(NewAlert(d, t, now), webhook, (k: nat) => env.post(i, k), env.formatDate));
      a.(id := id).threshold == t && Reports(a.(id := id), DeliveryError(d, t, now, webhook, env, i))
  {
    assert NewAlert(d, t, now).threshold == GetThreshold(SetThreshold(Alert("", d.id, d.name, 0, d.expirationDate, now, false, ""), t));
  }

  /** The record saved at position `i` joins the records saved after it. */
  lemma DeliveredAppend(ts: seq<Duration>, i: nat, rows: seq<Alert>, rows1: seq<Alert>, rows2: seq<Alert>,
                        d: Domain, now: Time, remaining: Duration, webhook: string, env: Env)
    requires i < |ts|
    requires var a := Recorded(NewAlert(d, ts[i], now), SendAlert(NewAlert(d, ts[i], now), webhook, (k: nat) => env.post(i, k), env.formatDate));
      rows1 == rows + [a.(id := env.freshId(i))]
    requires |rows1| <= |rows2| && rows2[..|rows1|] == rows1
    requires NewRecords(rows2, |rows1|, d, now, remaining, ts[i + 1..])
    requires Delivered(rows2, |rows1|, d, now, webhook, env, ts, i + 1)
    ensures Delivered(rows2, |rows|, d, now, webhook, env, ts, i)
  {
    var x := rows2[|rows|];
    assert x == rows1[|rows|] by {
      assert x == rows2[..|rows1|][|rows|];
    }
    RecordReports(d, ts[i], now, webhook, env, i, env.freshId(i));
    NotListedAgain(rows2, |rows1|, d, now, remaining, ts[i + 1..], ts[i]);
    DeliveredWiden(rows2, |rows1|, d, now, webhook, env, ts, i);
    assert FirstIndex(ts, i, x.threshold) == i;
    DeliveredCons(rows2, |rows|, d, now, webhook, env, ts, i);
  }

  /** A first evaluation with the default configuration (no webhook) of a
      domain 25 days from expiry crosses the 90-, 60- and 30-day thresholds
      but not the 7-day one: it records three failed alerts, in that order,
      each with the missing-webhook error and no `POST` made. */
  lemma DefaultConfigScenario(d: Domain, now: Time, env: Env)
    requires Healthy(env, [])
    requires Sub(d.expirationDate, now) == 25 * Day
    ensures var r := EvaluateAlerts(State(None, []), d, now, env);
      && r.1 == None && |r.0.alerts| == 3
      && r.0.alerts[0].threshold == 90 * Day && r.0.alerts[1].threshold == 60 * Day
      && r.0.alerts[2].threshold == 30 * Day
      && forall k :: 0 <= k < 3 ==>
           && r.0.alerts[k].id == env.freshId(k) && r.0.alerts[k].domainId == d.id
           && !r.0.alerts[k].success && r.0.alerts[k].errorMessage == "no webhook URL configured"
  {
    var config := ConfigRepository.DefaultConfig(now);
    var got := ConfigRepository.Get(None, now, env.configSelectFault, env.configInsertFault);
    assert got == Ok((Some(ConfigRepository.ToRow(config)), config));
    ScenarioLoop(ConfigEntity.GetAlertThresholds(config), d, now, env);
  }

  /** The threshold loop of the scenario above. */
  lemma ScenarioLoop(ts: seq<Duration>, d: Domain, now: Time, env: Env)
    requires Healthy(env, [])
    requires ts == [90 * Day, 60 * Day, 30 * Day, 7 * Day]
    ensures var r := EvalFrom(ts, 0, [], d, 25 * Day, "", now, env);
      r.1 == None && |r.0| == 3 && ScenarioRows(r.0, ts, d, env)
  {
    ScenarioRun(ts, [], d, 25 * Day, now, env, 3);
  }

  /** With no webhook and a healthy database, the thresholds before position
      `n` are crossed and those from `n` on are not: the loop appends one
      failed record per crossed threshold, in list order. */
  lemma {:induction false} ScenarioRun(ts: seq<Duration>, rows: seq<Alert>, d: Domain, remaining: Duration,
                                       now: Time, env: Env, n: nat)
    requires |rows| <= n <= |ts|
    requires ScenarioRows(rows, ts, d, env)
    requires forall k :: |rows| <= k < n ==> Crosses(remaining, ts[k])
    requires forall k :: n <= k < |ts| ==> !Crosses(remaining, ts[k])
    requires forall k, l :: 0 <= k < l < |ts| ==> ts[k] != ts[l]
    requires forall j :: env.dedupFault(j).None? && env.createFault(j).None?
    requires forall j, l :: j != l ==> env.freshId(j) != env.freshId(l)
    ensures var r := EvalFrom(ts, |rows|, rows, d, remaining, "", now, env);
      r.1 == None && |r.0| == n && ScenarioRows(r.0, ts, d, env)
    decreases |ts| - |rows|
  {
    if |rows| < n {
      var rows1 := ScenarioStep(ts, rows, d, remaining, now, env);
      ScenarioRun(ts, rows1, d, remaining, now, env, n);
    } else {
      EvalSkipsCovered(ts, |rows|, rows, d, remaining, "", now, env);
    }
  }

  /** Scenario records so far: the `k`-th is the failed record for `ts[k]`
      with the `k`-th fresh ID. */
  ghost predicate ScenarioRows(rows: seq<Alert>, ts: seq<Duration>, d: Domain, env: Env) {
    |rows| <= |ts| &&
    forall k :: 0 <= k < |rows| ==>
      && rows[k].id == env.freshId(k) && rows[k].threshold == ts[k] && rows[k].domainId == d.id
      && !rows[k].success && rows[k].errorMessage == "no webhook URL configured"
  }

  /** One crossed threshold not seen before, with no webhook: its failed
      record is appended with the next fresh ID. */
  lemma ScenarioStep(ts: seq<Duration>, rows: seq<Alert>, d: Domain, remaining: Duration, now: Time, env: Env)
    returns (rows1: seq<Alert>)
    requires |rows| < |ts| && Crosses(remaining, ts[|rows|])
    requires ScenarioRows(rows, ts, d, env)
    requires forall k :: 0 <= k < |rows| ==> ts[k] != ts[|rows|]
    requires forall j :: env.dedupFault(j).None? && env.createFault(j).None?
    requires forall j, l :: j != l ==> env.freshId(j) != env.freshId(l)
    ensures ScenarioRows(rows1, ts, d, env) && |rows1| == |rows| + 1
    ensures EvalFrom(ts, |rows|, rows, d, remaining, "", now, env) == EvalFrom(ts, |rows| + 1, rows1, d, remaining, "", now, env)
  {
    var i := |rows|;
    EvalCoversStep(ts, i, rows, d, remaining, "", now, env);
    var t := ts[i];
    var delivery := SendAlert(NewAlert(d, t, now), "", (k: nat) => env.post(i, k), env.formatDate);
    var a := Recorded(NewAlert(d, t, now), delivery);
    forall x | x in rows ensures x.id != env.freshId(i) && !(x.domainId == d.id && x.threshold == t) {
      var k :| 0 <= k < |rows| && rows[k] == x;
    }
    rows1 := rows + [a.(id := env.freshId(i))];
  }
}

=== FILE: config_entity.dfy ===
/** `internal/domain/config.go`: the single configuration record, its
    duration accessors and the `Durations` column codec. */
module ConfigEntity {
  import opened Wrappers
  import opened GoTime
  import opened Driver
  import Int64Json
  import Decimal

  /** The configuration row. Durations are stored as `int64` nanoseconds. */
  datatype Config = Config(
    id: Int64,
    monitoringInterval: Int64,
    alertThresholds: seq<Duration>,
    googleChatWebhook: string,
    retentionPeriod: Int64,
    updatedAt: Time)

  function GetMonitoringInterval(c: Config): Duration {
    c.monitoringInterval
  }

  /** Setting the interval is undone by reading it back, and touches nothing else. */
  function SetMonitoringInterval(c: Config, d: Duration): (r: Config)
    ensures GetMonitoringInterval(r) == d
    ensures r.(monitoringInterval := c.monitoringInterval) == c
  {
    c.(monitoringInterval := d)
  }

  function GetRetentionPeriod(c: Config): Duration {
    c.retentionPeriod
  }

  function SetRetentionPeriod(c: Config, d: Duration): (r: Config)
    ensures GetRetentionPeriod(r) == d
    ensures r.(retentionPeriod := c.retentionPeriod) == c
  {
    c.(retentionPeriod := d)
  }

  function GetAlertThresholds(c: Config): seq<Duration> {
    c.alertThresholds
  }

  /** Thresholds read back with the same length, in the same order. */
  function SetAlertThresholds(c: Config, ts: seq<Duration>): (r: Config)
    ensures |GetAlertThresholds(r)| == |ts|
    ensures forall i :: 0 <= i < |ts| ==> GetAlertThresholds(r)[i] == ts[i]
    ensures r.(alertThresholds := c.alertThresholds) == c
  {
    c.(alertThresholds := ts)
  }

  /** Writing back what was read changes nothing. */
  lemma GetSetIdentity(c: Config)
    ensures SetMonitoringInterval(c, GetMonitoringInterval(c)) == c
    ensures SetRetentionPeriod(c, GetRetentionPeriod(c)) == c
    ensures SetAlertThresholds(c, GetAlertThresholds(c)) == c
  {
  }

  /** `Durations.Value`: the JSON array of the nanosecond counts. A nil slice
      and an empty slice both encode as `[]`. */
  function DurationsValue(ds: seq<Duration>): (text: string)
    ensures ds == [] ==> text == "[]"
    ensures Int64Json.Decode(text) == Ok(ds)
  {
    Int64Json.EncodeDecode(ds);
    Int64Json.Encode(ds)
  }

  /** `Durations.Scan`: `NULL` and values that are not bytes give an empty
      list and no error; bytes are decoded as a JSON `[]int64`, and a decoding
      error is returned as is. */
  function DurationsScan(v: DbValue): (r: Result<seq<Duration>>)
    ensures v.Null? || v.Other? ==> r == Ok([])
    ensures v.Bytes? ==> r == Int64Json.Decode(v.data)
  {
    match v
    case Null => Ok([])
    case Other => Ok([])
    case Bytes(data) => Int64Json.Decode(data)
  }

  /** Scanning what `Value` stored gives back the same durations. */
  lemma ValueScanRoundTrip(ds: seq<Duration>)
    ensures DurationsScan(Bytes(DurationsValue(ds))) == Ok(ds)
  {
  }

  /** Bytes whose first non-blank character starts neither an array nor
      `null` (a JSON string, object, number or boolean) are rejected. */
  lemma ScanRejectsNonArray(text: string)
    requires var t := Int64Json.SkipWs(text); |t| > 0 && t[0] != '[' && t[0] != 'n'
    ensures DurationsScan(Bytes(text)).Err?
  {
  }

  /** An element with a fractional part is rejected, whatever follows it. */
  lemma {:induction false} ScanRejectsFraction(v: Int64, rest: string)
    ensures DurationsScan(Bytes("[" + Decimal.IntToString(v) + "." + rest)).Err?
  {
    var s := "[" + Decimal.IntToString(v) + "." + rest;
    var after := "." + rest;
    assert s[1..] == Decimal.IntToString(v) + after;
    assert v >= 0 ==> Decimal.IsDigit(s[1]);
    assert Int64Json.SkipWs(s) == s;
    assert Int64Json.SkipWs(s[1..]) == s[1..];
    Int64Json.ParseElemOf(v, after);
    assert Int64Json.SkipWs(after) == after;
    assert Int64Json.ParseItems(s[1..]).Err?;
  }
}

=== FILE: config_repository.dfy ===
/** `internal/repository/config.go`: the single-row `config` table. The
    thresholds column holds the text `Durations.Value` wrote, so reading the
    row back goes through `Durations.Scan`. */
module ConfigRepository {
  import opened Wrappers
  import opened GoTime
  import opened Driver
  import opened ConfigEntity

  /** The stored row: the thresholds column is a driver value. */
  datatype ConfigRow = ConfigRow(
    id: Int64,
    monitoringInterval: Int64,
    alertThresholds: DbValue,
    googleChatWebhook: string,
    retentionPeriod: Int64,
    updatedAt: Time)

  /** The table holds at most one row (`CHECK (id = 1)`). */
  type Table = Option<ConfigRow>

  /** The SQLite message for a second insert of row 1. */
  const DuplicateRow: string := "UNIQUE constraint failed: config.id"

  /** What `INSERT`/`UPDATE` write for a configuration. */
  function ToRow(c: Config): ConfigRow {
    ConfigRow(c.id, c.monitoringInterval, Bytes(DurationsValue(c.alertThresholds)),
              c.googleChatWebhook, c.retentionPeriod, c.updatedAt)
  }

  /** What `SELECT` scans out of a row; scanning the thresholds may fail. */
  function FromRow(row: ConfigRow): (r: Result<Config>)
    ensures r.Ok? <==> DurationsScan(row.alertThresholds).Ok?
  {
    var ts := DurationsScan(row.alertThresholds);
    if ts.Err? then Err(ts.msg)
    else Ok(Config(row.id, row.monitoringInterval, ts.value, row.googleChatWebhook, row.retentionPeriod, row.updatedAt))
  }

  /** A written configuration reads back unchanged. */
  lemma RowRoundTrip(c: Config)
    ensures FromRow(ToRow(c)) == Ok(c)
  {
    ValueScanRoundTrip(c.alertThresholds);
  }

  const DefaultInterval: Duration := 24 * Hour
  const DefaultRetention: Duration := 90 * 24 * Hour
  const DefaultThresholds: seq<Duration> := [90 * 24 * Hour, 60 * 24 * Hour, 30 * 24 * Hour, 7 * 24 * Hour]

  /** `createDefaultConfig()`: row 1, daily checks, 90-day retention, alerts
      at 90, 60, 30 and 7 days, no webhook. */
  function DefaultConfig(now: Time): (c: Config)
    ensures c.id == 1 && c.googleChatWebhook == "" && c.updatedAt == now
    ensures GetMonitoringInterval(c) == Day
    ensures GetRetentionPeriod(c) == 90 * Day
    ensures GetAlertThresholds(c) == [90 * Day, 60 * Day, 30 * Day, 7 * Day]
  {
    var c := Config(1, 0, [], "", 0, now);
    var c := SetMonitoringInterval(c, DefaultInterval);
    var c := SetRetentionPeriod(c, DefaultRetention);
    SetAlertThresholds(c, DefaultThresholds)
  }

  /** `create(config)`: forces ID 1 and `UpdatedAt = now`, then inserts. */
  function Create(table: Table, c: Config, now: Time, fault: Option<string>): (r: Result<(Table, Config)>)
    ensures r.Ok? <==> fault.None? && table.None?
    ensures r.Ok? ==> r.value.1 == c.(id := 1, updatedAt := now) && r.value.0 == Some(ToRow(r.value.1))
    ensures r.Err? ==> r.msg == Wrap("failed to create config", if fault.Some? then fault.value else DuplicateRow)
  {
    var c' := c.(id := 1, updatedAt := now);
    if fault.Some? then Err(Wrap("failed to create config", fault.value))
    else if table.Some? then Err(Wrap("failed to create config", DuplicateRow))
    else Ok((Some(ToRow(c')), c'))
  }

  /** `Get()`: the stored configuration; on an empty table the defaults are
      inserted and returned. `selectFault` is a failure of the `SELECT` other
      than "no rows"; `insertFault` a failure of the default insert. */
  function Get(table: Table, now: Time, selectFault: Option<string>, insertFault: Option<string>): (r: Result<(Table, Config)>)
    ensures selectFault.Some? ==> r == Err(Wrap("failed to get config", selectFault.value))
    ensures selectFault.None? && table.None? && insertFault.None? ==>
      r == Ok((Some(ToRow(DefaultConfig(now))), DefaultConfig(now)))
    ensures selectFault.None? && table.None? && insertFault.Some? ==>
      r == Err(Wrap("failed to create default config", Wrap("failed to create config", insertFault.value)))
    ensures selectFault.None? && table.Some? ==>
      (r.Ok? <==> FromRow(table.value).Ok?) && (r.Ok? ==> r.value == (table, FromRow(table.value).value))
  {
    if selectFault.Some? then Err(Wrap("failed to get config", selectFault.value))
    else if table.None? then
      var d := DefaultConfig(now);
      var created := Create(table, d, now, insertFault);
      if created.Err? then Err(Wrap("failed to create default config", created.msg))
      else Ok((created.value.0, d))
    else
      var c := FromRow(table.value);
      if c.Err? then Err(Wrap("failed to get config", c.msg)) else Ok((table, c.value))
  }

  /** `Update(config)`: forces ID 1 and `UpdatedAt = now`, updates row 1, and
      inserts it when no row was affected. `updateFault` fails the `UPDATE`,
      `rowsFault` the `RowsAffected` call after it, `insertFault` the insert.
      Returns the table, the configuration as the caller now holds it, and
      the error. */
  function Update(table: Table, c: Config, now: Time, updateFault: Option<string>,
                  rowsFault: Option<string>, insertFault: Option<string>): (r: (Table, Config, Option<string>))
    ensures r.1 == c.(id := 1, updatedAt := now)
    ensures updateFault.Some? ==> r.0 == table && r.2 == Some(Wrap("failed to update config", updateFault.value))
    ensures updateFault.None? && table.Some? ==> r.0 == Some(ToRow(r.1))
    ensures updateFault.None? && table.Some? ==>
      r.2 == if rowsFault.Some? then Some(Wrap("failed to get rows affected", rowsFault.value)) else None
    ensures updateFault.None? && rowsFault.None? && table.None? ==>
      if insertFault.None? then r.0 == Some(ToRow(r.1)) && r.2 == None
      else r.0 == table && r.2 == Some(Wrap("failed to create config", insertFault.value))
  {
    var c' := c.(id := 1, updatedAt := now);
    if updateFault.Some? then (table, c', Some(Wrap("failed to update config", updateFault.value)))
    else
      var table' := if table.Some? then Some(ToRow(c')) else table;
      if rowsFault.Some? then (table', c', Some(Wrap("failed to get rows affected", rowsFault.value)))
      else if table.Some? then (table', c', None)
      else
        var created := Create(table', c', now, insertFault);
        if created.Err? then (table', c', Some(created.msg)) else (created.value.0, c', None)
  }

  /** A table that already holds a row is left alone by `Get`, which returns
      that row's configuration. */
  lemma GetExisting(c: Config, now: Time)
    ensures Get(Some(ToRow(c)), now, None, None) == Ok((Some(ToRow(c)), c))
  {
    RowRoundTrip(c);
  }

  /** A successful `Update` followed by `Get` returns what was written: same
      interval, thresholds (in order), webhook and retention, ID 1. */
  lemma UpdateThenGet(table: Table, c: Config, now: Time, later: Time)
    ensures var u := Update(table, c, now, None, None, None);
      u.2 == None &&
      Get(u.0, later, None, None) == Ok((u.0, c.(id := 1, updatedAt := now)))
  {
    RowRoundTrip(c.(id := 1, updatedAt := now));
  }

  /** Once `Get` has created the defaults, a second `Get` returns the same
      configuration, whatever the clock says. */
  lemma GetIsStable(now: Time, later: Time)
    ensures var first := Get(None, now, None, None);
      first.Ok? && Get(first.value.0, later, None, None) == first
  {
    RowRoundTrip(DefaultConfig(now));
  }
}

=== FILE: db.dfy ===
/** The pure helpers of `internal/repository/db.go`: a hand-rolled substring
    search, the classification of SQLite constraint violations, and the
    reconnect loop (with `Ping` supplied as the outcome of each attempt). */
module Db {
  import opened Wrappers
  import opened GoTime
  import opened Decimal
  import Retry

  /** `sub` occurs in `s` starting at index `i`. */
  predicate OccursAt(s: string, sub: string, i: nat) {
    i + |sub| <= |s| && s[i..i + |sub|] == sub
  }

  /** The reference meaning of substring search. */
  ghost predicate IsSubstring(s: string, sub: string) {
    exists i: nat :: OccursAt(s, sub, i)
  }

  /** `containsMiddle(s, sub)`: tries every start index `0 .. len(s)-len(sub)`. */
  function ContainsMiddle(s: string, sub: string): (r: bool)
    ensures r <==> IsSubstring(s, sub)
  {
    ScanFrom(s, sub, 0)
  }

  /** The scan of `containsMiddle` from start index `i` on. */
  function ScanFrom(s: string, sub: string, i: nat): (r: bool)
    ensures r <==> exists j: nat :: i <= j && OccursAt(s, sub, j)
    decreases |s| - i
  {
    if i > |s| - |sub| then false
    else if s[i..i + |sub|] == sub then assert OccursAt(s, sub, i); true
    else ScanFrom(s, sub, i + 1)
  }

  /** `contains(s, sub)`: the length check, the whole-string, prefix and suffix
      shortcuts, and finally the middle scan. */
  function Contains(s: string, sub: string): (r: bool)
    ensures r <==> IsSubstring(s, sub)
  {
    ContainsExact(s, sub);
    |s| >= |sub| && (s == sub ||
      (|s| > |sub| && (s[..|sub|] == sub || s[|s| - |sub|..] == sub || ContainsMiddle(s, sub))))
  }

  /** The shortcuts of `contains` are sound, and an occurrence in a string no
      longer than the pattern is the whole string. */
  lemma ContainsExact(s: string, sub: string)
    ensures |s| >= |sub| && s == sub ==> OccursAt(s, sub, 0)
    ensures |s| >= |sub| && s[..|sub|] == sub ==> OccursAt(s, sub, 0)
    ensures |s| >= |sub| && s[|s| - |sub|..] == sub ==> OccursAt(s, sub, |s| - |sub|)
    ensures IsSubstring(s, sub) ==> |s| >= |sub|
    ensures IsSubstring(s, sub) && |s| == |sub| ==> s == sub
  {
    if IsSubstring(s, sub) {
      var i: nat :| OccursAt(s, sub, i);
      if |s| == |sub| {
        assert i == 0 && s[0..|s|] == s;
      }
    }
  }

  /** The empty string is found in every string. */
  lemma ContainsEmpty(s: string)
    ensures Contains(s, "")
  {
    assert OccursAt(s, "", 0);
  }

  /** A pattern found inside a longer pattern found in `s` is found in `s`. */
  lemma {:induction false} SubstringTrans(s: string, mid: string, sub: string, i: nat, j: nat)
    requires OccursAt(s, mid, i) && OccursAt(mid, sub, j)
    ensures OccursAt(s, sub, i + j)
  {
    forall k | 0 <= k < |sub|
      ensures s[i + j + k] == sub[k]
    {
      assert s[i..i + |mid|][j + k] == mid[j + k];
      assert mid[j..j + |sub|][k] == sub[k];
    }
    assert s[i + j..i + j + |sub|] == sub;
  }

  const UniqueFailed: string := "UNIQUE constraint failed"
  const ConstraintFailed: string := "constraint failed"

  /** `IsConstraintError(err)`: `nil` is not a constraint error; otherwise the
      message is searched for "UNIQUE constraint failed" or "constraint failed". */
  function IsConstraintError(err: Option<string>): (r: bool)
    ensures r <==> err.Some? && IsSubstring(err.value, ConstraintFailed)
  {
    if err.None? then false
    else
      UniqueImpliesConstraint(err.value);
      Contains(err.value, UniqueFailed) || Contains(err.value, ConstraintFailed)
  }

  /** The first pattern of `IsConstraintError` is subsumed by the second. */
  lemma UniqueImpliesConstraint(m: string)
    ensures IsSubstring(m, UniqueFailed) ==> IsSubstring(m, ConstraintFailed)
  {
    assert OccursAt(UniqueFailed, ConstraintFailed, 7);
    if IsSubstring(m, UniqueFailed) {
      var i: nat :| OccursAt(m, UniqueFailed, i);
      SubstringTrans(m, UniqueFailed, ConstraintFailed, i, 7);
    }
  }

  /** The error `ReconnectWithBackoff` reports when no ping succeeded. */
  function ReconnectError(maxRetries: Int64): string {
    "failed to reconnect after " + IntToString(maxRetries) + " attempts"
  }

  /** A ping outcome as a retry attempt. */
  function PingAttempt(ping: nat -> Option<string>): nat -> Result<()> {
    (k: nat) => if ping(k).None? then Ok(()) else Err(ping(k).value)
  }

  /** `ReconnectWithBackoff(maxRetries)`, where `ping(k)` is the outcome of the
      `k`-th `Ping` (`None` for success). Returns the error, the number of pings
      made and the durations slept. */
  method ReconnectWithBackoff(maxRetries: Int64, ping: nat -> Option<string>)
    returns (err: Option<string>, pings: nat, sleeps: seq<Duration>)
    ensures pings <= Retry.Max0(maxRetries)
    ensures err.None? <==> pings >= 1 && ping(pings - 1).None?
    ensures forall j :: 0 <= j < pings && (err.Some? || j < pings - 1) ==> ping(j).Some?
    ensures err.Some? ==> pings == Retry.Max0(maxRetries) && err == Some(ReconnectError(maxRetries))
    ensures sleeps == Retry.Backoffs(Retry.Max0(pings - 1))
  {
    var run := Retry.RetryLoop(maxRetries, PingAttempt(ping));
    pings := run.attempts;
    sleeps := run.sleeps;
    err := if run.value.Some? then None else Some(ReconnectError(maxRetries));
    forall j | 0 <= j < pings && (err.Some? || j < pings - 1)
      ensures ping(j).Some?
    {
      assert PingAttempt(ping)(j).Err?;
    }
  }
}

=== FILE: decimal.dfy ===
/** Decimal text of integers: what Go's `%d` verb prints, and the digit-run
    reading that a number parser needs to undo it. */
module Decimal {

  predicate IsDigit(c: char) {
    '0' <= c <= '9'
  }

  predicate AllDigits(s: string) {
    forall i :: 0 <= i < |s| ==> IsDigit(s[i])
  }

  function DigitChar(d: nat): (c: char)
    requires d < 10
    ensures IsDigit(c)
  {
    (48 + d) as char
  }

  function DigitValue(c: char): (d: nat)
    requires IsDigit(c)
    ensures d < 10 && DigitChar(d) == c
  {
    c as int - 48
  }

  /** Canonical decimal digits of a natural number: no sign, no leading zero. */
  function NatToString(n: nat): (s: string)
    ensures |s| >= 1 && AllDigits(s)
    ensures |s| > 1 ==> s[0] != '0'
    decreases n
  {
    if n < 10 then [DigitChar(n)] else NatToString(n / 10) + [DigitChar(n % 10)]
  }

  /** `fmt.Sprintf("%d", i)`. */
  function IntToString(i: int): (s: string)
    ensures |s| >= 1
    ensures s[0] == '-' <==> i < 0
    ensures i >= 0 ==> s == NatToString(i)
  {
    if i < 0 then "-" + NatToString(-i) else NatToString(i)
  }

  /** The number a run of decimal digits denotes. */
  function DigitsValue(s: string): nat
    requires AllDigits(s)
  {
    if s == [] then 0 else DigitsValue(s[..|s| - 1]) * 10 + DigitValue(s[|s| - 1])
  }

  /** Reading back the digits `NatToString` prints yields the number printed. */
  lemma {:induction false} NatToStringRoundTrip(n: nat)
    ensures DigitsValue(NatToString(n)) == n
  {
    if n >= 10 {
      var s := NatToString(n);
      assert s[..|s| - 1] == NatToString(n / 10);
      NatToStringRoundTrip(n / 10);
    }
  }

  /** After its sign, a negative number prints as its magnitude. */
  lemma NegativeDigits(i: int)
    requires i < 0
    ensures IntToString(i)[1..] == NatToString(-i)
  {
    assert IntToString(i) == "-" + NatToString(-i);
  }
}

=== FILE: domain_entity.dfy ===
/** `internal/domain/domain.go`: a monitored domain and its `Strings` column codec. */
module DomainEntity {
  import opened Wrappers
  import opened GoTime
  import opened Driver

  /** A monitored domain with the WHOIS facts last seen for it. */
  datatype Domain = Domain(
    id: string,
    name: string,
    expirationDate: Time,
    nameservers: seq<string>,
    registrant: string,
    registrar: string,
    lastChecked: Time,
    nextCheck: Time,
    createdAt: Time,
    updatedAt: Time)

  /** `DaysUntilExpiration()` read at `now`: whole days truncated toward zero. */
  function DaysUntilExpiration(d: Domain, now: Time): (n: int)
    ensures var left := Sub(d.expirationDate, now);
      (left >= 0 ==> 0 <= n * Day <= left < n * Day + Day) &&
      (left < 0 ==> n * Day - Day < left <= n * Day <= 0)
  {
    WholeDays(Sub(d.expirationDate, now))
  }

  /** `IsExpired()` read at `now`: `now` is strictly after the expiration date. */
  function IsExpired(d: Domain, now: Time): (r: bool)
    ensures r ==> DaysUntilExpiration(d, now) <= 0
    ensures !r ==> DaysUntilExpiration(d, now) >= 0
  {
    now > d.expirationDate
  }

  /** Within the first day after expiration a domain is already expired while
      its day count still reads zero; at the expiration instant it is not yet
      expired. */
  lemma ExpiredOnDayZero(d: Domain, now: Time)
    requires d.expirationDate < now < d.expirationDate + Day
    ensures IsExpired(d, now) && DaysUntilExpiration(d, now) == 0
    ensures !IsExpired(d, d.expirationDate) && DaysUntilExpiration(d, d.expirationDate) == 0
  {
  }

  /** `Strings.Value`: the JSON array of the names; a nil slice is written as
      the empty array. The JSON string encoding itself is a parameter. */
  function StringsValue(ss: seq<string>, marshal: seq<string> -> string): (text: string)
    ensures ss == [] ==> text == marshal([])
  {
    marshal(ss)
  }

  /** `Strings.Scan`: `NULL` and values that are not bytes give an empty slice
      and no error; bytes are unmarshalled (the JSON decoder is a parameter). */
  function StringsScan(v: DbValue, unmarshal: string -> Result<seq<string>>): (r: Result<seq<string>>)
    ensures v.Null? || v.Other? ==> r == Ok([])
    ensures v.Bytes? ==> r == unmarshal(v.data)
  {
    match v
    case Null => Ok([])
    case Other => Ok([])
    case Bytes(data) => unmarshal(data)
  }
}

=== FILE: domain_repository.dfy ===
/** `internal/repository/domain.go`: the `domains` table as a sequence of rows
    in insertion order. The schema makes `id` the primary key and `name`
    unique; SQLite's constraint messages are produced for violations, and any
    other failure of a statement is supplied as a `fault`. */
module DomainRepository {
  import opened Wrappers
  import opened GoTime
  import opened DomainEntity
  import Db
  import Seqs

  /** The table's key constraints. */
  ghost predicate WellFormed(rows: seq<Domain>) {
    forall i, j :: 0 <= i < j < |rows| ==> rows[i].id != rows[j].id && rows[i].name != rows[j].name
  }

  predicate HasId(rows: seq<Domain>, id: string) {
    exists i :: 0 <= i < |rows| && rows[i].id == id
  }

  predicate HasName(rows: seq<Domain>, name: string) {
    exists i :: 0 <= i < |rows| && rows[i].name == name
  }

  /** SQLite's message for a violated `UNIQUE` or `PRIMARY KEY` column. */
  function UniqueFailed(column: string): string {
    "UNIQUE constraint failed: " + column
  }

  /** SQLite's uniqueness messages are recognised as constraint errors. */
  lemma UniqueFailedIsConstraint(column: string)
    ensures Db.IsConstraintError(Some(UniqueFailed(column)))
  {
    var m := UniqueFailed(column);
    assert m[7..7 + |Db.ConstraintFailed|] == Db.ConstraintFailed;
    assert Db.OccursAt(m, Db.ConstraintFailed, 7);
  }

  /** The error SQLite reports for inserting `d`, if any. */
  function InsertError(rows: seq<Domain>, d: Domain, fault: Option<string>): Option<string> {
    if fault.Some? then fault
    else if HasId(rows, d.id) then Some(UniqueFailed("domains.id"))
    else if HasName(rows, d.name) then Some(UniqueFailed("domains.name"))
    else None
  }

  function AlreadyExists(name: string): string {
    "domain " + name + " already exists"
  }

  /** `Create(d)`: an empty ID is replaced by `freshId` (a new UUID),
      `CreatedAt` and `UpdatedAt` are set to `now`, and the row is inserted.
      Any constraint violation, on the name or on the ID, is reported as
      "domain <name> already exists"; any other failure is wrapped. */
  function Create(rows: seq<Domain>, d: Domain, now: Time, freshId: string, fault: Option<string>): (r: Result<(seq<Domain>, Domain)>)
    requires WellFormed(rows)
    ensures var stored := d.(id := if d.id == "" then freshId else d.id, createdAt := now, updatedAt := now);
      && (r.Ok? <==> fault.None? && !HasId(rows, stored.id) && !HasName(rows, d.name))
      && (r.Ok? ==> r.value == (rows + [stored], stored) && WellFormed(r.value.0))
      && (fault.None? && (HasName(rows, d.name) || HasId(rows, stored.id)) ==> r == Err(AlreadyExists(d.name)))
      && (fault.Some? ==> r == Err(if Db.IsSubstring(fault.value, Db.ConstraintFailed) then AlreadyExists(d.name)
                                   else Wrap("failed to create domain", fault.value)))
  {
    var stored := d.(id := if d.id == "" then freshId else d.id, createdAt := now, updatedAt := now);
    var err := InsertError(rows, stored, fault);
    if err.Some? then
      UniqueFailedIsConstraint("domains.id");
      UniqueFailedIsConstraint("domains.name");
      if Db.IsConstraintError(err) then Err(AlreadyExists(d.name))
      else Err(Wrap("failed to create domain", err.value))
    else
      assert forall i :: 0 <= i < |rows| ==> (rows + [stored])[i] == rows[i];
      Ok((rows + [stored], stored))
  }

  /** The first row satisfying `p`, as `db.Get` returns it. */
  function Find(rows: seq<Domain>, p: Domain -> bool): (r: Option<Domain>)
    ensures r.None? <==> forall i :: 0 <= i < |rows| ==> !p(rows[i])
    ensures r.Some? ==> r.value in rows && p(r.value)
  {
    if |rows| == 0 then None
    else if p(rows[0]) then Some(rows[0])
    else
      var r := Find(rows[1..], p);
      assert forall i :: 1 <= i < |rows| ==> rows[i] == rows[1..][i - 1];
      r
  }

  /** `GetByID(id)`: the row with that ID, or "domain not found: <id>". */
  function GetByID(rows: seq<Domain>, id: string, fault: Option<string>): (r: Result<Domain>)
    ensures fault.Some? ==> r == Err(Wrap("failed to get domain", fault.value))
    ensures fault.None? ==> (r.Ok? <==> HasId(rows, id))
    ensures fault.None? && r.Err? ==> r.msg == "domain not found: " + id
    ensures r.Ok? ==> r.value in rows && r.value.id == id
  {
    if fault.Some? then Err(Wrap("failed to get domain", fault.value))
    else
      var found := Find(rows, (x: Domain) => x.id == id);
      if found.None? then Err("domain not found: " + id) else Ok(found.value)
  }

  /** `GetByName(name)`: the row with that name, or "domain not found: <name>". */
  function GetByName(rows: seq<Domain>, name: string, fault: Option<string>): (r: Result<Domain>)
    ensures fault.Some? ==> r == Err(Wrap("failed to get domain", fault.value))
    ensures fault.None? ==> (r.Ok? <==> HasName(rows, name))
    ensures fault.None? && r.Err? ==> r.msg == "domain not found: " + name
    ensures r.Ok? ==> r.value in rows && r.value.name == name
  {
    if fault.Some? then Err(Wrap("failed to get domain", fault.value))
    else
      var found := Find(rows, (x: Domain) => x.name == name);
      if found.None? then Err("domain not found: " + name) else Ok(found.value)
  }

  /** `GetAll()`: every domain, soonest expiration first. */
  function GetAll(rows: seq<Domain>, fault: Option<string>): (r: Result<seq<Domain>>)
    ensures fault.Some? ==> r == Err(Wrap("failed to get all domains", fault.value))
    ensures fault.None? ==> r.Ok? && multiset(r.value) == multiset(rows)
    ensures fault.None? ==> forall i, j :: 0 <= i < j < |r.value| ==> r.value[i].expirationDate <= r.value[j].expirationDate
  {
    if fault.Some? then Err(Wrap("failed to get all domains", fault.value))
    else Ok(Seqs.SortBy(rows, (x: Domain) => x.expirationDate))
  }

  /** `GetDomainsForCheck()` at `now`: the domains due (`NextCheck <= now`),
      earliest first. */
  function GetDomainsForCheck(rows: seq<Domain>, now: Time, fault: Option<string>): (r: Result<seq<Domain>>)
    ensures fault.Some? ==> r == Err(Wrap("failed to get domains for check", fault.value))
    ensures fault.None? ==> r.Ok? && forall x :: multiset(r.value)[x] == if x.nextCheck <= now then multiset(rows)[x] else 0
    ensures fault.None? ==> forall i, j :: 0 <= i < j < |r.value| ==> r.value[i].nextCheck <= r.value[j].nextCheck
  {
    if fault.Some? then Err(Wrap("failed to get domains for check", fault.value))
    else Ok(Seqs.SortBy(Seqs.Filter(rows, (x: Domain) => x.nextCheck <= now), (x: Domain) => x.nextCheck))
  }

  /** The columns `Update` writes, taken from `d`; `id` and `created_at` stay. */
  function Overwrite(row: Domain, d: Domain, now: Time): Domain {
    row.(name := d.name, expirationDate := d.expirationDate, nameservers := d.nameservers,
         registrant := d.registrant, registrar := d.registrar, lastChecked := d.lastChecked,
         nextCheck := d.nextCheck, updatedAt := now)
  }

  function ReplaceRow(rows: seq<Domain>, d: Domain, now: Time): (r: seq<Domain>)
    ensures |r| == |rows|
    ensures forall i :: 0 <= i < |rows| ==> r[i] == if rows[i].id == d.id then Overwrite(rows[i], d, now) else rows[i]
  {
    if |rows| == 0 then []
    else [if rows[0].id == d.id then Overwrite(rows[0], d, now) else rows[0]] + ReplaceRow(rows[1..], d, now)
  }

  /** Another row already carries `name`. */
  predicate NameTakenByOther(rows: seq<Domain>, id: string, name: string) {
    exists i :: 0 <= i < |rows| && rows[i].name == name && rows[i].id != id
  }

  /** `Update(d)`: sets `UpdatedAt = now` and rewrites every column of the row
      with `d`'s ID except `created_at`. A missing ID is "domain not found";
      giving an existing row another row's name violates the unique name column.
      `execFault` fails the `UPDATE`, `rowsFault` the `RowsAffected` call after
      it. Returns the table and the error. */
  function Update(rows: seq<Domain>, d: Domain, now: Time, execFault: Option<string>, rowsFault: Option<string>): (r: (seq<Domain>, Option<string>))
    requires WellFormed(rows)
    ensures WellFormed(r.0)
    ensures execFault.Some? ==> r == (rows, Some(Wrap("failed to update domain", execFault.value)))
    ensures execFault.None? && HasId(rows, d.id) && NameTakenByOther(rows, d.id, d.name) ==>
      r == (rows, Some(Wrap("failed to update domain", UniqueFailed("domains.name"))))
    ensures execFault.None? && rowsFault.None? && !HasId(rows, d.id) ==>
      r == (rows, Some("domain not found: " + d.id))
    ensures execFault.None? && rowsFault.None? && HasId(rows, d.id) ==>
      (r.1 == None <==> !NameTakenByOther(rows, d.id, d.name))
    ensures r.1 == None ==> |r.0| == |rows| && forall i :: 0 <= i < |rows| ==>
      (rows[i].id == d.id ==> r.0[i] == Overwrite(rows[i], d, now) && r.0[i].createdAt == rows[i].createdAt && r.0[i].updatedAt == now) &&
      (rows[i].id != d.id ==> r.0[i] == rows[i])
  {
    if execFault.Some? then (rows, Some(Wrap("failed to update domain", execFault.value)))
    else if HasId(rows, d.id) && NameTakenByOther(rows, d.id, d.name) then (rows, Some(Wrap("failed to update domain", UniqueFailed("domains.name"))))
    else
      var rows' := ReplaceRow(rows, d, now);
      if rowsFault.Some? then (rows', Some(Wrap("failed to get rows affected", rowsFault.value)))
      else if !HasId(rows, d.id) then
        assert rows' == rows;
        (rows', Some("domain not found: " + d.id))
      else (rows', None)
  }

  function RemoveId(rows: seq<Domain>, id: string): (r: seq<Domain>)
    ensures forall x :: multiset(r)[x] == if x.id == id then 0 else multiset(rows)[x]
  {
    Seqs.Filter(rows, (x: Domain) => x.id != id)
  }

  /** `Delete(id)`: removes the row with that ID and no other; a missing ID is
      "domain not found". */
  function Delete(rows: seq<Domain>, id: string, execFault: Option<string>, rowsFault: Option<string>): (r: (seq<Domain>, Option<string>))
    ensures execFault.Some? ==> r == (rows, Some(Wrap("failed to delete domain", execFault.value)))
    ensures execFault.None? ==> forall x :: multiset(r.0)[x] == if x.id == id then 0 else multiset(rows)[x]
    ensures execFault.None? && rowsFault.None? ==> (r.1 == None <==> HasId(rows, id))
    ensures execFault.None? && rowsFault.None? && r.1 != None ==> r.1 == Some("domain not found: " + id)
  {
    if execFault.Some? then (rows, Some(Wrap("failed to delete domain", execFault.value)))
    else
      var rows' := RemoveId(rows, id);
      if rowsFault.Some? then (rows', Some(Wrap("failed to get rows affected", rowsFault.value)))
      else if !HasId(rows, id) then (rows', Some("domain not found: " + id))
      else (rows', None)
  }

  /** `DeleteOlderThan(cutoff)`, its `WHERE` clause read literally:
      `created_at < cutoff AND id NOT IN (SELECT id FROM domains)`. */
  function DeleteOlderThan(rows: seq<Domain>, cutoff: Time, fault: Option<string>): (r: (seq<Domain>, Option<string>))
    ensures fault.Some? ==> r == (rows, Some(Wrap("failed to delete old domains", fault.value)))
  {
    if fault.Some? then (rows, Some(Wrap("failed to delete old domains", fault.value)))
    else (Seqs.Filter(rows, (x: Domain) => !(x.createdAt < cutoff && !HasId(rows, x.id))), None)
  }

  /** The retention delete never removes a domain: every row's ID is in the
      table the subquery reads. */
  lemma {:induction false} DeleteOlderThanKeepsAll(rows: seq<Domain>, cutoff: Time)
    ensures DeleteOlderThan(rows, cutoff, None) == (rows, None)
  {
    var p := (x: Domain) => !(x.createdAt < cutoff && !HasId(rows, x.id));
    forall i | 0 <= i < |rows|
      ensures p(rows[i])
    {
      assert HasId(rows, rows[i].id);
    }
    FilterAll(rows, p);
  }

  lemma {:induction false} FilterAll(rows: seq<Domain>, p: Domain -> bool)
    requires forall i :: 0 <= i < |rows| ==> p(rows[i])
    ensures Seqs.Filter(rows, p) == rows
  {
    if |rows| > 0 {
      FilterAll(rows[1..], p);
      assert [rows[0]] + rows[1..] == rows;
    }
  }

  /** A created domain is found again by its ID with the name, registrant,
      registrar and nameservers it was created with. */
  lemma CreateThenGetByID(rows: seq<Domain>, d: Domain, now: Time, freshId: string)
    requires WellFormed(rows)
    requires Create(rows, d, now, freshId, None).Ok?
    ensures var (rows', stored) := Create(rows, d, now, freshId, None).value;
      var got := GetByID(rows', stored.id, None);
      got == Ok(stored) && got.value.name == d.name && got.value.registrant == d.registrant &&
      got.value.registrar == d.registrar && got.value.nameservers == d.nameservers
  {
    var (rows', stored) := Create(rows, d, now, freshId, None).value;
    assert rows'[|rows|] == stored;
    var got := GetByID(rows', stored.id, None);
    var k :| 0 <= k < |rows'| && rows'[k] == got.value;
    assert k == |rows|;
  }
}

=== FILE: driver.dfy ===
/** The values `database/sql` hands to a `Scan` method: SQL `NULL`, a byte
    slice (text read from SQLite, seen here as characters), or any other
    driver value, whose contents the scanners ignore. */
module Driver {
  datatype DbValue = Null | Bytes(data: string) | Other
}

=== FILE: gotime.dfy ===
/** Go's `time` package as far as the core uses it: instants and durations are
    integer nanoseconds, `now` is always passed in explicitly. */
module GoTime {

  const MinInt64: int := -0x8000_0000_0000_0000
  const MaxInt64: int := 0x7FFF_FFFF_FFFF_FFFF
  const TwoTo64: int := 0x1_0000_0000_0000_0000

  /** Go's `int64` (and `int` on a 64-bit platform). */
  type Int64 = x: int | MinInt64 <= x <= MaxInt64

  /** `time.Duration`: an `int64` count of nanoseconds. */
  type Duration = Int64

  /** `time.Time`: nanoseconds since the Unix epoch. Go's Time spans more than an
      `int64` of nanoseconds, so instants are unbounded integers. */
  type Time = int

  const Nanosecond: Duration := 1
  const Second: Duration := 1_000_000_000
  const Hour: Duration := 3_600_000_000_000
  const Day: Duration := 86_400_000_000_000

  /** The zero `time.Time` (January 1, year 1, UTC), which `IsZero` recognises. */
  const ZeroTime: Time := -62_135_596_800_000_000_000

  predicate IsZero(t: Time) {
    t == ZeroTime
  }

  /** Two's-complement wrap-around of an `int64` multiplication or sum. */
  function Wrap64(x: int): (r: Int64)
    ensures MinInt64 <= x <= MaxInt64 ==> r == x
  {
    var m := x % TwoTo64;
    if m <= MaxInt64 then m else m - TwoTo64
  }

  /** The wrapped value differs from the exact one by a multiple of 2^64. */
  lemma Wrap64Congruent(x: int)
    ensures (x - Wrap64(x)) % TwoTo64 == 0
  {
  }

  /** `t.Sub(u)`: the difference saturates at the bounds of `Duration`. */
  function Sub(t: Time, u: Time): (d: Duration)
    ensures MinInt64 <= t - u <= MaxInt64 ==> d == t - u
    ensures t - u > MaxInt64 ==> d == MaxInt64
    ensures t - u < MinInt64 ==> d == MinInt64
    ensures (d > 0 <==> t > u) && (d == 0 <==> t == u)
  {
    if t - u > MaxInt64 then MaxInt64
    else if t - u < MinInt64 then MinInt64
    else t - u
  }

  /** `t.Add(d)`. */
  function Add(t: Time, d: Duration): Time {
    t + d
  }

  /** Go's integer division, which truncates toward zero (Dafny's `/` is Euclidean). */
  function TruncDiv(a: int, b: int): (q: int)
    requires b > 0
    ensures a >= 0 ==> 0 <= q * b <= a < q * b + b
    ensures a < 0 ==> q * b - b < a <= q * b <= 0
  {
    if a >= 0 then
      DivMod(a, b);
      a / b
    else
      DivMod(-a, b);
      -((-a) / b)
  }

  lemma DivMod(a: nat, b: int)
    requires b > 0
    ensures 0 <= (a / b) * b <= a < (a / b) * b + b
  {
    assert a == (a / b) * b + a % b;
  }

  /** `int(d.Hours() / 24)`: whole days in a duration, truncated toward zero.
      The floating-point path is replaced by exact integer division. */
  function WholeDays(d: Duration): (n: int)
    ensures d >= 0 ==> 0 <= n * Day <= d < n * Day + Day
    ensures d < 0 ==> n * Day - Day < d <= n * Day <= 0
    ensures d >= 0 ==> n >= 0
    ensures d <= 0 ==> n <= 0
    ensures -Day < d < Day ==> n == 0
  {
    TruncDiv(d, Day)
  }

  /** Truncation toward zero is symmetric, unlike Dafny's Euclidean division. */
  lemma WholeDaysOdd(d: Duration)
    requires d != MinInt64
    ensures WholeDays(-d) == -WholeDays(d)
  {
  }
}

=== FILE: handlers.dfy ===
/** The input checks of `internal/web/handlers.go`: the configuration form of
    `handleUpdateConfig` and the domain form of `handleAddDomain`. Form values
    are strings (an absent field reads as ""); `fmt.Sscanf(text, "%d", &n)`
    is the parameter `scan`; the response is the redirect or the error page's
    status and text. */
module Handlers {
  import opened Wrappers
  import opened GoTime
  import opened DomainEntity
  import opened WhoisEntity
  import ConfigEntity
  import ConfigRepository
  import Seqs
  import DomainRepository
  import Scheduler

  /** `fmt.Sscanf(text, "%d", &n)`: the integer read, or `None` when scanning
      fails (the variable then keeps its zero value). */
  type Scan = string -> Option<Int64>

  datatype Response = Redirect(location: string) | ErrorPage(status: int, text: string)

  /** `renderError`: the message, then the error when there is one. */
  function ErrorText(message: string, err: Option<string>): (text: string)
    ensures err.None? ==> text == message
    ensures err.Some? ==> text == Wrap(message, err.value)
  {
    if err.Some? then Wrap(message, err.value) else message
  }

  /** What `n` holds after `fmt.Sscanf` when its error is ignored. */
  function ScanOrZero(scan: Scan, text: string): Int64 {
    if scan(text).Some? then scan(text).value else 0
  }

  /** `time.Duration(hours) * time.Hour`, wrapping like Go's `int64`. */
  function HoursToDuration(hours: Int64): (d: Duration)
    ensures 1 <= hours <= MaxInt64 / Hour ==> d == hours * Hour && d >= Hour
  {
    Wrap64(hours * Hour)
  }

  /** `time.Duration(days) * 24 * time.Hour`, wrapping after each product. */
  function DaysToDuration(days: Int64): (d: Duration)
    ensures 1 <= days <= MaxInt64 / Day ==> d == days * Day && d >= Day
  {
    Wrap64(Wrap64(days * 24) * Hour)
  }

  /** Past 2562047 hours (about 292 years) the interval wraps: the form accepts
      2562048 hours, and the interval stored is negative. */
  lemma IntervalWraps()
    ensures MaxInt64 / Hour == 2562047
    ensures HoursToDuration(2562048) < 0
  {
    var x := 2562048 * Hour;
    assert x == 9223372800000000000;
    var r := Wrap64(x);
    Wrap64Congruent(x);
    assert 0 < x - r < 2 * TwoTo64;
  }

  /** Past 106751 days a threshold or retention period wraps the same way. */
  lemma DaysWrap()
    ensures MaxInt64 / Day == 106751
    ensures DaysToDuration(106752) < 0
  {
    var y := Wrap64(106752 * 24);
    assert y == 2562048;
    var x := y * Hour;
    assert x == 9223372800000000000;
    var r := Wrap64(x);
    Wrap64Congruent(x);
    assert 0 < x - r < 2 * TwoTo64;
  }

  /** `unicode.IsSpace`. */
  predicate IsSpace(c: char) {
    c == ' ' || c == '\t' || c == '\n' || c == '\r' || c == '\U{B}' || c == '\U{C}' ||
    c == '\U{85}' || c == '\U{A0}' || c == '\U{1680}' || ('\U{2000}' <= c <= '\U{200A}') ||
    c == '\U{2028}' || c == '\U{2029}' || c == '\U{202F}' || c == '\U{205F}' || c == '\U{3000}'
  }

  function TrimLeft(s: string): (r: string)
    ensures |r| <= |s| && r == s[|s| - |r|..]
    ensures forall i :: 0 <= i < |s| - |r| ==> IsSpace(s[i])
    ensures r == [] || !IsSpace(r[0])
  {
    if |s| > 0 && IsSpace(s[0]) then TrimLeft(s[1..]) else s
  }

  function TrimRight(s: string): (r: string)
    ensures |r| <= |s| && r == s[..|r|]
    ensures forall i :: |r| <= i < |s| ==> IsSpace(s[i])
    ensures r == [] || !IsSpace(r[|r| - 1])
  {
    if |s| > 0 && IsSpace(s[|s| - 1]) then TrimRight(s[..|s| - 1]) else s
  }

  /** `strings.TrimSpace`: the middle of `s` between its leading and trailing
      white space. */
  function TrimSpace(s: string): (r: string)
    ensures exists i, j ::
      (0 <= i <= j <= |s| && r == s[i..j] &&
       (forall k :: 0 <= k < i ==> IsSpace(s[k])) && (forall k :: j <= k < |s| ==> IsSpace(s[k])))
    ensures r == [] || (!IsSpace(r[0]) && !IsSpace(r[|r| - 1]))
  {
    var l := TrimLeft(s);
    var r := TrimRight(l);
    var i := |s| - |l|;
    assert r == s[i..i + |r|];
    r
  }

  /** `strings.Join(parts, ",")`. */
  function Join(parts: seq<string>): string
    requires |parts| >= 1
  {
    if |parts| == 1 then parts[0] else parts[0] + "," + Join(parts[1..])
  }

  /** `strings.Split(s, ",")`: the comma-free pieces between the commas. */
  function Split(s: string): (parts: seq<string>)
    ensures |parts| >= 1
    ensures forall i :: 0 <= i < |parts| ==> ',' !in parts[i]
    ensures Join(parts) == s
  {
    if |s| == 0 then [""]
    else
      var rest := Split(s[1..]);
      if s[0] == ',' then
        assert s == [','] + s[1..];
        [""] + rest
      else
        var parts := [[s[0]] + rest[0]] + rest[1..];
        assert parts[1..] == rest[1..];
        assert s == [s[0]] + s[1..];
        parts
  }

  /** Splitting a comma-joined list of comma-free pieces gives the pieces back. */
  lemma {:induction false} SplitJoin(parts: seq<string>)
    requires |parts| >= 1
    requires forall i :: 0 <= i < |parts| ==> ',' !in parts[i]
    ensures Split(Join(parts)) == parts
    decreases |Join(parts)|, |parts[0]|
  {
    var p := parts[0];
    if |p| > 0 {
      var parts' := [p[1..]] + parts[1..];
      assert Join(parts) == [p[0]] + Join(parts');
      SplitJoin(parts');
      assert Join(parts)[1..] == Join(parts');
      assert [p[0]] + p[1..] == p;
    } else if |parts| > 1 {
      assert Join(parts) == [','] + Join(parts[1..]);
      SplitJoin(parts[1..]);
      assert Join(parts)[1..] == Join(parts[1..]);
    }
  }

  /** The trimmed, non-blank pieces of a comma-separated list, in order. */
  function Tokens(pieces: seq<string>): (ts: seq<string>)
    ensures |ts| <= |pieces|
    ensures forall k :: 0 <= k < |ts| ==> ts[k] != ""
  {
    if |pieces| == 0 then []
    else
      var t := TrimSpace(pieces[0]);
      var rest := Tokens(pieces[1..]);
      if t == "" then rest
      else [t] + rest
  }

  /** Each piece with its surrounding space trimmed, position for position. */
  function Trimmed(pieces: seq<string>): (r: seq<string>)
    ensures |r| == |pieces|
    ensures forall k :: 0 <= k < |pieces| ==> r[k] == TrimSpace(pieces[k])
  {
    seq(|pieces|, k requires 0 <= k < |pieces| => TrimSpace(pieces[k]))
  }

  function NonBlank(t: string): bool {
    t != ""
  }

  /** The tokens are exactly the trimmed pieces that are not blank, in the
      order and with the multiplicity the pieces have. */
  lemma {:induction false} TokensAreNonBlankTrims(pieces: seq<string>)
    ensures Tokens(pieces) == Seqs.Filter(Trimmed(pieces), NonBlank)
    decreases |pieces|
  {
    if |pieces| > 0 {
      var tr := Trimmed(pieces);
      var t := TrimSpace(pieces[0]);
      TokensAreNonBlankTrims(pieces[1..]);
      assert tr[1..] == Trimmed(pieces[1..]);
      FilterCons(tr, t);
      assert Tokens(pieces) == (if t == "" then [] else [t]) + Tokens(pieces[1..]);
    }
  }

  lemma FilterCons(tr: seq<string>, t: string)
    requires |tr| > 0 && tr[0] == t
    ensures Seqs.Filter(tr, NonBlank) == (if t == "" then [] else [t]) + Seqs.Filter(tr[1..], NonBlank)
  {
  }

  predicate ValidDays(scan: Scan, t: string) {
    scan(t).Some? && scan(t).value > 0
  }

  /** The threshold loop over the tokens: the first token that does not scan
      to a positive day count is rejected by name; otherwise the thresholds
      are the day counts as durations, in input order. */
  function ParseDays(tokens: seq<string>, scan: Scan): (r: Result<seq<Duration>>)
    ensures r.Ok? <==> forall k :: 0 <= k < |tokens| ==> ValidDays(scan, tokens[k])
    ensures r.Ok? ==>
      (|r.value| == |tokens| && forall k :: 0 <= k < |tokens| ==> r.value[k] == DaysToDuration(scan(tokens[k]).value))
    ensures r.Err? ==>
      exists k ::
        (0 <= k < |tokens| && !ValidDays(scan, tokens[k]) &&
         (forall j :: 0 <= j < k ==> ValidDays(scan, tokens[j])) && r.msg == "Invalid threshold value: " + tokens[k])
  {
    if |tokens| == 0 then Ok([])
    else if !ValidDays(scan, tokens[0]) then Err("Invalid threshold value: " + tokens[0])
    else
      var rest := ParseDays(tokens[1..], scan);
      if rest.Err? then
        var k :| 0 <= k < |tokens[1..]| && !ValidDays(scan, tokens[1..][k]) &&
          (forall j :: 0 <= j < k ==> ValidDays(scan, tokens[1..][j])) && rest.msg == "Invalid threshold value: " + tokens[1..][k];
        assert !ValidDays(scan, tokens[k + 1]);
        assert forall j :: 1 <= j < k + 1 ==> tokens[j] == tokens[1..][j - 1];
        rest
      else
        assert forall k :: 1 <= k < |tokens| ==> tokens[k] == tokens[1..][k - 1];
        Ok([DaysToDuration(scan(tokens[0]).value)] + rest.value)
  }

  /** The thresholds field: each piece is trimmed and blanks are skipped; a
      bad token, or no token at all, rejects the form. */
  function ParseThresholds(text: string, scan: Scan): (r: Result<seq<Duration>>)
    ensures var tokens := Tokens(Split(text));
      && (r.Ok? <==> |tokens| > 0 && ParseDays(tokens, scan).Ok?)
      && (r.Ok? ==> r.value == ParseDays(tokens, scan).value && |r.value| > 0)
      && (ParseDays(tokens, scan).Ok? && |tokens| == 0 ==> r == Err("At least one alert threshold is required"))
  {
    var days := ParseDays(Tokens(Split(text)), scan);
    if days.Err? then days
    else if |days.value| == 0 then Err("At least one alert threshold is required")
    else days
  }

  /** The configuration form's fields (`FormValue`, "" when absent). */
  datatype ConfigForm = ConfigForm(interval: string, webhook: string, retention: string, thresholds: string)

  predicate HasPrefix(s: string, prefix: string) {
    |prefix| <= |s| && s[..|prefix|] == prefix
  }

  predicate IntervalOk(f: ConfigForm, scan: Scan) {
    f.interval == "" || ScanOrZero(scan, f.interval) >= 1
  }

  predicate WebhookOk(f: ConfigForm) {
    f.webhook == "" || HasPrefix(f.webhook, "https://")
  }

  predicate RetentionOk(f: ConfigForm, scan: Scan) {
    f.retention == "" || ScanOrZero(scan, f.retention) >= 1
  }

  predicate ThresholdsOk(f: ConfigForm, scan: Scan) {
    f.thresholds == "" || ParseThresholds(f.thresholds, scan).Ok?
  }

  /** The checks of `handleUpdateConfig`, in the order interval, webhook,
      retention, thresholds; the first failure names the field. On success
      each given field replaces its setting, an absent interval, retention or
      threshold list keeps the old one, and the webhook is always replaced
      (so an empty field clears it). */
  function ApplyForm(c: ConfigEntity.Config, f: ConfigForm, scan: Scan): (r: Result<ConfigEntity.Config>)
    ensures r.Ok? <==> IntervalOk(f, scan) && WebhookOk(f) && RetentionOk(f, scan) && ThresholdsOk(f, scan)
    ensures !IntervalOk(f, scan) ==> r == Err("Monitoring interval must be at least 1 hour")
    ensures IntervalOk(f, scan) && !WebhookOk(f) ==> r == Err("Webhook URL must use HTTPS")
    ensures IntervalOk(f, scan) && WebhookOk(f) && !RetentionOk(f, scan) ==>
      r == Err("Retention period must be at least 1 day")
    ensures IntervalOk(f, scan) && WebhookOk(f) && RetentionOk(f, scan) && !ThresholdsOk(f, scan) ==>
      r == Err(ParseThresholds(f.thresholds, scan).msg)
    ensures r.Ok? ==>
      && ConfigEntity.GetMonitoringInterval(r.value) ==
           (if f.interval == "" then ConfigEntity.GetMonitoringInterval(c) else HoursToDuration(ScanOrZero(scan, f.interval)))
      && r.value.googleChatWebhook == f.webhook
      && ConfigEntity.GetRetentionPeriod(r.value) ==
           (if f.retention == "" then ConfigEntity.GetRetentionPeriod(c) else DaysToDuration(ScanOrZero(scan, f.retention)))
      && ConfigEntity.GetAlertThresholds(r.value) ==
           (if f.thresholds == "" then ConfigEntity.GetAlertThresholds(c) else ParseThresholds(f.thresholds, scan).value)
      && r.value.id == c.id && r.value.updatedAt == c.updatedAt
  {
    var hours := ScanOrZero(scan, f.interval);
    if f.interval != "" && hours < 1 then Err("Monitoring interval must be at least 1 hour")
    else
      var c1 := if f.interval != "" then ConfigEntity.SetMonitoringInterval(c, HoursToDuration(hours)) else c;
      if f.webhook != "" && !HasPrefix(f.webhook, "https://") then Err("Webhook URL must use HTTPS")
      else
        var c2 := c1.(googleChatWebhook := f.webhook);
        var days := ScanOrZero(scan, f.retention);
        if f.retention != "" && days < 1 then Err("Retention period must be at least 1 day")
        else
          var c3 := if f.retention != "" then ConfigEntity.SetRetentionPeriod(c2, DaysToDuration(days)) else c2;
          if f.thresholds == "" then Ok(c3)
          else
            var ts := ParseThresholds(f.thresholds, scan);
            if ts.Err? then Err(ts.msg)
            else
              var c4 := ConfigEntity.SetAlertThresholds(c3, ts.value);
              assert ConfigEntity.GetAlertThresholds(c4) == ts.value;
              Ok(c4)
  }

  /** The database outcomes of one `handleUpdateConfig` request. */
  datatype ConfigFaults = ConfigFaults(select: Option<string>, insertDefault: Option<string>,
                                       update: Option<string>, rowsAffected: Option<string>, insert: Option<string>)

  /** `handleUpdateConfig` at `now`: read the config (creating the defaults
      when there is none), apply the form, and save. A rejected form saves
      nothing: the table is as `Get` left it. */
  function HandleUpdateConfig(table: ConfigRepository.Table, f: ConfigForm, scan: Scan, now: Time,
                              faults: ConfigFaults): (r: (ConfigRepository.Table, Response))
    ensures var got := ConfigRepository.Get(table, now, faults.select, faults.insertDefault);
      && (got.Err? ==> r == (table, ErrorPage(500, Wrap("Failed to load configuration", got.msg))))
      && (got.Ok? && ApplyForm(got.value.1, f, scan).Err? ==>
            r == (got.value.0, ErrorPage(400, ApplyForm(got.value.1, f, scan).msg)))
    ensures var got := ConfigRepository.Get(table, now, faults.select, faults.insertDefault);
      got.Ok? && ApplyForm(got.value.1, f, scan).Ok? ==>
        var u := ConfigRepository.Update(got.value.0, ApplyForm(got.value.1, f, scan).value, now,
                                         faults.update, faults.rowsAffected, faults.insert);
        r == (u.0, if u.2.Some? then ErrorPage(500, Wrap("Failed to update configuration", u.2.value))
                   else Redirect("/config"))
    ensures r.1 == Redirect("/config") ==>
      var got := ConfigRepository.Get(table, now, faults.select, faults.insertDefault);
      got.Ok? && ApplyForm(got.value.1, f, scan).Ok? &&
      ConfigRepository.Get(r.0, now, None, None) ==
        Ok((r.0, ApplyForm(got.value.1, f, scan).value.(id := 1, updatedAt := now)))
  {
    var got := ConfigRepository.Get(table, now, faults.select, faults.insertDefault);
    if got.Err? then (table, ErrorPage(500, ErrorText("Failed to load configuration", Some(got.msg))))
    else
      var applied := ApplyForm(got.value.1, f, scan);
      if applied.Err? then (got.value.0, ErrorPage(400, ErrorText(applied.msg, None)))
      else
        var u := ConfigRepository.Update(got.value.0, applied.value, now, faults.update, faults.rowsAffected, faults.insert);
        if u.2.Some? then (u.0, ErrorPage(500, ErrorText("Failed to update configuration", Some(u.2.value))))
        else
          ConfigRepository.GetExisting(u.1, now);
          (u.0, Redirect("/config"))
  }

  /** The domain `handleAddDomain` builds from a WHOIS answer: checked now,
      next check in 24 hours whatever the configured interval. */
  function NewDomain(name: string, info: DomainInfo, now: Time): (d: Domain)
    ensures d.id == "" && d.name == name && d.lastChecked == now && d.nextCheck == now + Day
    ensures d.expirationDate == info.expirationDate && d.nameservers == info.nameservers
    ensures d.registrant == info.registrant && d.registrar == info.registrar
  {
    Domain("", name, info.expirationDate, info.nameservers, info.registrant, info.registrar,
           now, Add(now, 24 * Hour), ZeroTime, ZeroTime)
  }

  /** `handleAddDomain` at `now`: an empty name is rejected before any
      lookup; a failed lookup or insert is reported; otherwise the domain is
      stored and scheduled, its first check due in exactly 24 hours. */
  function HandleAddDomain(rows: seq<Domain>, sched: Scheduler.State, name: string, query: Result<DomainInfo>,
                           now: Time, freshId: string, fault: Option<string>): (r: (seq<Domain>, Scheduler.State, Response))
    requires DomainRepository.WellFormed(rows) && Scheduler.Valid(sched)
    ensures DomainRepository.WellFormed(r.0) && Scheduler.Valid(r.1)
    ensures name == "" ==> r == (rows, sched, ErrorPage(400, "Domain name is required"))
    ensures name != "" && query.Err? ==> r == (rows, sched, ErrorPage(400, Wrap("Failed to query domain", query.msg)))
    ensures name != "" && query.Ok? ==>
      var created := DomainRepository.Create(rows, NewDomain(name, query.value, now), now, freshId, fault);
      created.Err? ==> r.2 == ErrorPage(500, Wrap("Failed to add domain", created.msg))
    ensures r.2.ErrorPage? ==> r.0 == rows && r.1 == sched
    ensures r.2 == Redirect("/") <==>
      name != "" && query.Ok? && DomainRepository.Create(rows, NewDomain(name, query.value, now), now, freshId, fault).Ok?
    ensures r.2 == Redirect("/") ==>
      var stored := DomainRepository.Create(rows, NewDomain(name, query.value, now), now, freshId, fault).value.1;
      && r.0 == rows + [stored] && stored.name == name && stored.nextCheck == now + Day
      && Scheduler.PendingWith(r.1, stored.id, Day)
  {
    if name == "" then (rows, sched, ErrorPage(400, ErrorText("Domain name is required", None)))
    else if query.Err? then (rows, sched, ErrorPage(400, ErrorText("Failed to query domain", Some(query.msg))))
    else
      var created := DomainRepository.Create(rows, NewDomain(name, query.value, now), now, freshId, fault);
      if created.Err? then (rows, sched, ErrorPage(500, ErrorText("Failed to add domain", Some(created.msg))))
      else
        var stored := created.value.1;
        (created.value.0, Scheduler.ScheduleDomain(sched, stored, now), Redirect("/"))
  }
}

=== FILE: int64json.dfy ===
/** The JSON text of a Go `[]int64`: what `json.Marshal` writes and what
    `json.Unmarshal` accepts into a `[]int64`.

    Accepted input: optional JSON whitespace, then either `null` (no elements) or an
    array whose elements are `null` (left as the zero value) or integer literals
    `-?(0|[1-9][0-9]*)` within `int64`, then optional whitespace. Every other input
    is an error: a syntax error, or a value (fraction, exponent, string, bool,
    object, out-of-range integer) that cannot be stored in an `int64`. */
module Int64Json {
  import opened Wrappers
  import opened GoTime
  import opened Decimal

  /** The error text of `json.Unmarshal` is not modelled; any failure reports this. */
  const DecodeError: string := "json: cannot decode []int64"

  /** `json.Marshal(xs)` for `xs: []int64` (a non-nil slice). */
  function Encode(xs: seq<Int64>): string {
    "[" + Items(xs) + "]"
  }

  function Items(xs: seq<Int64>): string {
    if |xs| == 0 then ""
    else if |xs| == 1 then IntToString(xs[0])
    else IntToString(xs[0]) + "," + Items(xs[1..])
  }

  predicate IsWs(c: char) {
    c == ' ' || c == '\t' || c == '\n' || c == '\r'
  }

  function SkipWs(s: string): (r: string)
    ensures |r| <= |s|
    ensures r == [] || !IsWs(r[0])
  {
    if |s| > 0 && IsWs(s[0]) then SkipWs(s[1..]) else s
  }

  /** Splits off the longest run of leading decimal digits. */
  function SpanDigits(s: string): (r: (string, string))
    ensures AllDigits(r.0) && r.0 + r.1 == s
  {
    if |s| > 0 && IsDigit(s[0]) then
      var (ds, rest) := SpanDigits(s[1..]);
      ([s[0]] + ds, rest)
    else ([], s)
  }

  /** An integer literal at the start of `s`, and the text after it. */
  function ParseNumber(s: string): (r: Result<(Int64, string)>)
    ensures r.Ok? ==> |r.value.1| < |s|
  {
    if |s| > 0 && s[0] == '-' then ParseMagnitude(true, s[1..]) else ParseMagnitude(false, s)
  }

  /** The digits of an integer literal after its optional sign. */
  function ParseMagnitude(neg: bool, t: string): (r: Result<(Int64, string)>)
    ensures r.Ok? ==> |r.value.1| < |t|
  {
    var (ds, rest) := SpanDigits(t);
    if |ds| == 0 || (|ds| > 1 && ds[0] == '0') then Err(DecodeError)
    else
      var n: int := DigitsValue(ds);
      var v := if neg then -n else n;
      if MinInt64 <= v <= MaxInt64 then Ok((v, rest)) else Err(DecodeError)
  }

  /** One array element: `null` leaves the new element at zero. */
  function ParseElem(s: string): (r: Result<(Int64, string)>)
    ensures r.Ok? ==> |r.value.1| < |s|
  {
    if |s| >= 4 && s[..4] == "null" then Ok((0, s[4..])) else ParseNumber(s)
  }

  /** The elements of a non-empty array and its closing bracket. */
  function ParseItems(s: string): (r: Result<(seq<Int64>, string)>)
    ensures r.Ok? ==> |r.value.1| < |s|
    decreases |s|
  {
    var e := ParseElem(s);
    if e.Err? then Err(e.msg)
    else
      var r1 := SkipWs(e.value.1);
      if |r1| > 0 && r1[0] == ']' then Ok(([e.value.0], r1[1..]))
      else if |r1| > 0 && r1[0] == ',' then
        var more := ParseItems(SkipWs(r1[1..]));
        if more.Err? then Err(more.msg) else Ok(([e.value.0] + more.value.0, more.value.1))
      else Err(DecodeError)
  }

  function ParseArray(s: string): Result<(seq<Int64>, string)> {
    if |s| == 0 || s[0] != '[' then Err(DecodeError)
    else
      var r := SkipWs(s[1..]);
      if |r| > 0 && r[0] == ']' then Ok(([], r[1..])) else ParseItems(r)
  }

  /** `json.Unmarshal(text, &nanos)` for `nanos: []int64`, with top-level `null`
      leaving `nanos` empty. */
  function Decode(text: string): Result<seq<Int64>> {
    var t := SkipWs(text);
    if |t| >= 4 && t[..4] == "null" then
      if SkipWs(t[4..]) == [] then Ok([]) else Err(DecodeError)
    else
      match ParseArray(t)
      case Err(e) => Err(e)
      case Ok((xs, rest)) => if SkipWs(rest) == [] then Ok(xs) else Err(DecodeError)
  }

  lemma {:induction false} SpanDigitsOf(ds: string, rest: string)
    requires AllDigits(ds)
    requires rest == [] || !IsDigit(rest[0])
    ensures SpanDigits(ds + rest) == (ds, rest)
  {
    if ds == [] {
      assert ds + rest == rest;
    } else {
      var s := ds + rest;
      assert s[0] == ds[0] && IsDigit(s[0]);
      assert s[1..] == ds[1..] + rest;
      SpanDigitsOf(ds[1..], rest);
      assert [ds[0]] + ds[1..] == ds;
    }
  }

  lemma ParseMagnitudeOf(neg: bool, n: nat, rest: string)
    requires rest == [] || !IsDigit(rest[0])
    requires MinInt64 <= (if neg then -(n as int) else n) <= MaxInt64
    ensures ParseMagnitude(neg, NatToString(n) + rest) == Ok((if neg then -(n as int) else n, rest))
  {
    var ds := NatToString(n);
    SpanDigitsOf(ds, rest);
    NatToStringRoundTrip(n);
  }

  lemma ParseNumberOf(v: Int64, rest: string)
    requires rest == [] || !IsDigit(rest[0])
    ensures ParseNumber(IntToString(v) + rest) == Ok((v, rest))
  {
    if v < 0 {
      ParseNegativeOf(v, rest);
    } else {
      ParseNonNegativeOf(v, rest);
    }
  }

  lemma ParseNegativeOf(v: Int64, rest: string)
    requires v < 0
    requires rest == [] || !IsDigit(rest[0])
    ensures ParseNumber(IntToString(v) + rest) == Ok((v, rest))
  {
    var m: nat := -(v as int);
    var s := IntToString(v) + rest;
    SignedText(v, rest);
    assert ParseNumber(s) == ParseMagnitude(true, NatToString(m) + rest);
    ParseMagnitudeOf(true, m, rest);
  }

  lemma SignedText(v: Int64, rest: string)
    requires v < 0
    ensures |IntToString(v) + rest| > 0 && (IntToString(v) + rest)[0] == '-'
    ensures (IntToString(v) + rest)[1..] == NatToString(-(v as int)) + rest
  {
    NegativeDigits(v);
  }

  lemma ParseNonNegativeOf(v: Int64, rest: string)
    requires v >= 0
    requires rest == [] || !IsDigit(rest[0])
    ensures ParseNumber(IntToString(v) + rest) == Ok((v, rest))
  {
    var s := IntToString(v) + rest;
    var ds := NatToString(v);
    assert s == ds + rest;
    assert IsDigit(ds[0]);
    assert s[0] != '-';
    ParseMagnitudeOf(false, v, rest);
  }

  lemma ItemsHead(xs: seq<Int64>)
    requires |xs| >= 1
    ensures |Items(xs)| >= 1 && (Items(xs)[0] == '-' || IsDigit(Items(xs)[0]))
  {
    var s := IntToString(xs[0]);
    assert xs[0] >= 0 ==> IsDigit(s[0]);
  }

  lemma ParseElemOf(v: Int64, rest: string)
    requires rest == [] || !IsDigit(rest[0])
    ensures ParseElem(IntToString(v) + rest) == Ok((v, rest))
  {
    var s := IntToString(v) + rest;
    assert v >= 0 ==> IsDigit(s[0]);
    assert s[0] != 'n';
    ParseNumberOf(v, rest);
  }

  lemma ParseItemsLast(x: Int64, rest: string)
    ensures ParseItems(IntToString(x) + ("]" + rest)) == Ok(([x], rest))
  {
    var t := "]" + rest;
    ParseElemOf(x, t);
    assert SkipWs(t) == t;
    assert t[1..] == rest;
  }

  lemma ParseItemsCons(x: Int64, after: string, xs: seq<Int64>, rest: string)
    requires SkipWs(after) == after
    requires ParseItems(after) == Ok((xs, rest))
    ensures ParseItems(IntToString(x) + ("," + after)) == Ok(([x] + xs, rest))
  {
    var t := "," + after;
    ParseElemOf(x, t);
    assert SkipWs(t) == t;
    assert t[1..] == after;
  }

  lemma Regroup(a: string, b: string, c: string, d: string)
    ensures (a + b + c) + d == a + (b + (c + d))
  {
  }

  lemma {:induction false} ParseItemsOf(xs: seq<Int64>, rest: string)
    requires |xs| >= 1
    ensures ParseItems(Items(xs) + ("]" + rest)) == Ok((xs, rest))
  {
    var x := xs[0];
    if |xs| == 1 {
      assert Items(xs) == IntToString(x);
      ParseItemsLast(x, rest);
      assert [x] == xs;
    } else {
      var tail := xs[1..];
      var after := Items(tail) + ("]" + rest);
      assert Items(xs) == IntToString(x) + "," + Items(tail);
      Regroup(IntToString(x), ",", Items(tail), "]" + rest);
      ItemsHead(tail);
      assert SkipWs(after) == after;
      ParseItemsOf(tail, rest);
      ParseItemsCons(x, after, tail, rest);
      assert [x] + tail == xs;
    }
  }

  /** Decoding what `Encode` writes gives back the same elements in the same order. */
  lemma EncodeDecode(xs: seq<Int64>)
    ensures Decode(Encode(xs)) == Ok(xs)
  {
    var s := Encode(xs);
    assert s[0] == '[';
    assert SkipWs(s) == s;
    assert !(|s| >= 4 && s[..4] == "null");
    if |xs| == 0 {
      EncodeEmpty();
    } else {
      ParseArrayOf(xs);
    }
  }

  lemma EncodeEmpty()
    ensures ParseArray(Encode([])) == Ok(([], ""))
  {
    var s := Encode([]);
    assert Items([]) == "";
    assert s == "[]";
    var r := SkipWs(s[1..]);
    assert s[1..] == "]";
    assert r == "]";
    assert r[1..] == "";
  }

  lemma ParseArrayOf(xs: seq<Int64>)
    requires |xs| >= 1
    ensures ParseArray(Encode(xs)) == Ok((xs, ""))
  {
    var s := Encode(xs);
    assert s[1..] == Items(xs) + ("]" + "");
    ItemsHead(xs);
    assert SkipWs(s[1..]) == s[1..];
    ParseItemsOf(xs, "");
  }
}

=== FILE: retry.dfy ===
/** The retry-with-exponential-backoff loop that appears three times in the
    program (webhook delivery, WHOIS lookup, database reconnect):

        backoff := time.Second
        for attempt := 0; attempt < max; attempt++ {
          if try() succeeds { return success }
          lastErr = err
          if attempt < max-1 { time.Sleep(backoff); backoff *= 2 }
        }
        return failure(lastErr)

    Sleeping is not performed; the durations slept are returned instead. */
module Retry {
  import opened Wrappers
  import opened GoTime

  function Pow2(n: nat): (r: nat)
    ensures r >= 1
  {
    if n == 0 then 1 else 2 * Pow2(n - 1)
  }

  lemma {:induction false} Pow2Mono(i: nat, j: nat)
    requires i <= j
    ensures Pow2(i) <= Pow2(j)
  {
    if i < j {
      Pow2Mono(i, j - 1);
    }
  }

  lemma {:induction false} Pow2Add(a: nat, b: nat)
    ensures Pow2(a + b) == Pow2(a) * Pow2(b)
  {
    if a > 0 {
      Pow2Add(a - 1, b);
    }
  }

  lemma Pow2Of32()
    ensures Pow2(32) == 4294967296
  {
    assert Pow2(1) == 2;
    Pow2Add(1, 1);
    Pow2Add(2, 2);
    Pow2Add(4, 4);
    Pow2Add(8, 8);
    Pow2Add(16, 16);
  }

  /** The duration slept after the `i`-th failed attempt: one second, doubled
      each time with Go's int64 `time.Duration` arithmetic. */
  function BackoffAt(i: nat): Duration {
    if i == 0 then Second else Wrap64(BackoffAt(i - 1) * 2)
  }

  /** Up to 33 doublings the backoff is exactly 2^i seconds. */
  lemma {:induction false} BackoffDoubles(i: nat)
    requires i <= 33
    ensures BackoffAt(i) == Second * Pow2(i)
  {
    if i > 0 {
      BackoffDoubles(i - 1);
      var p := Pow2(i - 1);
      Pow2Mono(i - 1, 32);
      Pow2Of32();
      MulMono(1_000_000_000, p, 4294967296);
      var b: int := BackoffAt(i - 1);
      assert b == 1_000_000_000 * p;
      assert 0 < b * 2 <= MaxInt64;
      BackoffStep(i);
    }
  }

  /** A doubling that stays within `int64` does not wrap. */
  lemma BackoffStep(i: nat)
    requires i >= 1 && BackoffAt(i - 1) * 2 <= MaxInt64 && BackoffAt(i - 1) * 2 >= MinInt64
    ensures BackoffAt(i) == BackoffAt(i - 1) * 2
  {
  }

  lemma MulMono(a: nat, b: nat, c: nat)
    requires b <= c
    ensures a * b <= a * c
  {
  }

  /** The 34th doubling overflows `time.Duration` and the backoff turns negative. */
  lemma BackoffWraps()
    ensures BackoffAt(34) < 0
  {
    BackoffDoubles(33);
    Pow2Of32();
    assert Pow2(33) == 8589934592;
    assert BackoffAt(33) * 2 == 17179869184000000000;
  }

  /** The first `n` backoff durations, in the order they are slept. */
  function Backoffs(n: nat): (r: seq<Duration>)
    ensures |r| == n
    ensures forall i :: 0 <= i < n ==> r[i] == BackoffAt(i)
  {
    if n == 0 then [] else Backoffs(n - 1) + [BackoffAt(n - 1)]
  }

  function Total(ds: seq<int>): int {
    if |ds| == 0 then 0 else Total(ds[..|ds| - 1]) + ds[|ds| - 1]
  }

  /** Sleeping the first `n` backoffs takes 2^n - 1 seconds in all. */
  lemma {:induction false} BackoffTotal(n: nat)
    requires n <= 34
    ensures Total(Backoffs(n)) == Second * (Pow2(n) - 1)
  {
    if n > 0 {
      var b := Backoffs(n);
      assert b[..n - 1] == Backoffs(n - 1);
      BackoffTotal(n - 1);
      BackoffDoubles(n - 1);
    }
  }

  /** The outcome of a retry loop: the value of the successful attempt if any,
      the error of the last failed attempt, how many attempts were made and the
      durations slept between them. */
  datatype Run<T> = Run(value: Option<T>, lastErr: Option<string>, attempts: nat, sleeps: seq<Duration>)

  function Max0(n: int): nat {
    if n > 0 then n else 0
  }

  /** The loop with at most `max` attempts; `attempt(k)` is the outcome of the
      `k`-th try. */
  function Attempts<T>(max: int, attempt: nat -> Result<T>): (r: Run<T>)
    ensures r.attempts <= Max0(max)
    ensures r.value.Some? ==> r.attempts >= 1 && attempt(r.attempts - 1) == Ok(r.value.value)
    ensures r.value.None? ==> r.attempts == Max0(max)
    ensures forall k :: 0 <= k < r.attempts && (r.value.None? || k < r.attempts - 1) ==> attempt(k).Err?
    ensures r.value.None? ==> r.lastErr == if r.attempts == 0 then None else Some(attempt(r.attempts - 1).msg)
    ensures r.sleeps == Backoffs(Max0(r.attempts - 1))
  {
    LoopFacts(max, attempt, 0, Second, [], None);
    Loop(max, attempt, 0, Second, [], None)
  }

  /** The loop from its `k`-th iteration on. The failure of the last permitted
      attempt ends the loop directly: it neither sleeps nor iterates again. */
  function Loop<T>(max: int, attempt: nat -> Result<T>, k: nat, backoff: Duration,
                   sleeps: seq<Duration>, lastErr: Option<string>): Run<T>
    decreases max - k
  {
    if k >= max then Run(None, lastErr, k, sleeps)
    else match attempt(k)
      case Ok(v) => Run(Some(v), lastErr, k + 1, sleeps)
      case Err(e) =>
        if k < max - 1 then Loop(max, attempt, k + 1, Wrap64(backoff * 2), sleeps + [backoff], Some(e))
        else Run(None, Some(e), k + 1, sleeps)
  }

  /** What the loop from iteration `k` on achieves, given what the earlier
      iterations left behind. */
  lemma {:induction false} LoopFacts<T>(max: int, attempt: nat -> Result<T>, k: nat, backoff: Duration,
                                        sleeps: seq<Duration>, lastErr: Option<string>)
    requires LoopReady(max, attempt, k, backoff, sleeps, lastErr)
    ensures var r := Loop(max, attempt, k, backoff, sleeps, lastErr);
      && k <= r.attempts <= Max0(max)
      && (r.value.Some? ==> r.attempts >= 1 && attempt(r.attempts - 1) == Ok(r.value.value))
      && (r.value.None? ==> r.attempts == Max0(max))
      && (forall j :: 0 <= j < r.attempts && (r.value.None? || j < r.attempts - 1) ==> attempt(j).Err?)
      && (r.value.None? ==> r.lastErr == if r.attempts == 0 then None else Some(attempt(r.attempts - 1).msg))
      && r.sleeps == Backoffs(Max0(r.attempts - 1))
    decreases max - k
  {
    if k < max && attempt(k).Err? && k < max - 1 {
      LoopStep(max, attempt, k, backoff, sleeps, lastErr);
      LoopFacts(max, attempt, k + 1, Wrap64(backoff * 2), sleeps + [backoff], Some(attempt(k).msg));
    }
  }

  /** The facts `Loop` needs at iteration `k`. */
  ghost predicate LoopReady<T>(max: int, attempt: nat -> Result<T>, k: nat, backoff: Duration,
                               sleeps: seq<Duration>, lastErr: Option<string>) {
    && (k == 0 || k < max)
    && (forall j :: 0 <= j < k ==> attempt(j).Err?)
    && lastErr == (if k == 0 then None else Some(attempt(k - 1).msg))
    && backoff == BackoffAt(k)
    && sleeps == Backoffs(k)
  }

  /** A failed attempt that is not the last one moves the loop to the next
      iteration, one sleep longer and with the backoff doubled. */
  lemma LoopStep<T>(max: int, attempt: nat -> Result<T>, k: nat, backoff: Duration,
                    sleeps: seq<Duration>, lastErr: Option<string>)
    requires LoopReady(max, attempt, k, backoff, sleeps, lastErr)
    requires k < max - 1 && attempt(k).Err?
    ensures LoopReady(max, attempt, k + 1, Wrap64(backoff * 2), sleeps + [backoff], Some(attempt(k).msg))
    ensures Loop(max, attempt, k, backoff, sleeps, lastErr) ==
            Loop(max, attempt, k + 1, Wrap64(backoff * 2), sleeps + [backoff], Some(attempt(k).msg))
  {
    assert Backoffs(k + 1) == Backoffs(k) + [BackoffAt(k)];
  }

  /** The loop run step by step, as the program runs it; it agrees with
      `Attempts` on every input. */
  method RetryLoop<T>(max: int, attempt: nat -> Result<T>) returns (run: Run<T>)
    ensures run == Attempts(max, attempt)
  {
    var k: nat := 0;
    var backoff: Duration := Second;
    var sleeps: seq<Duration> := [];
    var lastErr: Option<string> := None;
    while k < max
      invariant LoopReady(max, attempt, k, backoff, sleeps, lastErr)
      invariant Loop(max, attempt, k, backoff, sleeps, lastErr) == Attempts(max, attempt)
      decreases max - k
    {
      var outcome := attempt(k);
      if outcome.Ok? {
        return Run(Some(outcome.value), lastErr, k + 1, sleeps);
      }
      if k < max - 1 {
        LoopStep(max, attempt, k, backoff, sleeps, lastErr);
        lastErr := Some(outcome.msg);
        sleeps := sleeps + [backoff];
        backoff := Wrap64(backoff * 2);
        k := k + 1;
      } else {
        return Run(None, Some(outcome.msg), k + 1, sleeps);
      }
    }
    run := Run(None, lastErr, k, sleeps);
  }

  /** Attempts stop at the first success: if attempt `k` succeeds and all before
      it failed, exactly `k + 1` attempts are made and attempt `k`'s value is returned. */
  lemma FirstSuccess<T>(max: int, attempt: nat -> Result<T>, k: nat)
    requires k < max
    requires forall j :: 0 <= j < k ==> attempt(j).Err?
    requires attempt(k).Ok?
    ensures Attempts(max, attempt).value == Some(attempt(k).value)
    ensures Attempts(max, attempt).attempts == k + 1
  {
  }
}

=== FILE: scheduler.dfy ===
/** `internal/scheduler/scheduler.go`: the map from domain ID to its check
    timer, and one check of a domain as a sequential step. A timer is a handle
    (an index) into the sequence of every timer made so far; it is pending
    until it is stopped or fires. The store, WHOIS and config outcomes of a
    check are inputs; what the check writes and evaluates is its output. */
module Scheduler {
  import opened Wrappers
  import opened GoTime
  import opened DomainEntity
  import opened WhoisEntity
  import ConfigEntity
  import DomainRepository

  datatype TimerState = Pending | Stopped | Fired

  /** A `time.AfterFunc` timer that checks `domainId` once `delay` has passed. */
  datatype Timer = Timer(domainId: string, delay: Duration, state: TimerState)

  /** Every timer made so far, the `scheduledDomains` map from domain ID to
      timer handle, and whether the scheduler's context has been cancelled. */
  datatype State = State(timers: seq<Timer>, scheduled: map<string, nat>, cancelled: bool)

  /** The map points each ID at one of that domain's timers, and every pending
      timer is the one its domain's entry points at: no pending timer is
      unreachable through the map, and no domain has two. */
  ghost predicate Valid(s: State) {
    && (forall id :: id in s.scheduled ==> s.scheduled[id] < |s.timers| && s.timers[s.scheduled[id]].domainId == id)
    && (forall h :: 0 <= h < |s.timers| && s.timers[h].state == Pending ==>
          s.timers[h].domainId in s.scheduled && s.scheduled[s.timers[h].domainId] == h)
  }

  /** The domain's timer is pending and will check after `delay`. */
  ghost predicate PendingWith(s: State, id: string, delay: Duration) {
    id in s.scheduled && s.scheduled[id] < |s.timers| && s.timers[s.scheduled[id]] == Timer(id, delay, Pending)
  }

  /** A valid state has at most one pending timer per domain. */
  lemma OnePendingPerDomain(s: State, h1: nat, h2: nat)
    requires Valid(s)
    requires h1 < |s.timers| && h2 < |s.timers|
    requires s.timers[h1].state == Pending && s.timers[h2].state == Pending
    requires s.timers[h1].domainId == s.timers[h2].domainId
    ensures h1 == h2
  {
  }

  /** The delay before a domain's next check: the time left until `NextCheck`,
      or zero when that moment has come. Never negative. */
  function Delay(nextCheck: Time, now: Time): (delay: Duration)
    ensures delay >= 0
    ensures delay > 0 <==> now < nextCheck
    ensures now < nextCheck && nextCheck - now <= MaxInt64 ==> delay == nextCheck - now
  {
    if now < nextCheck then Sub(nextCheck, now) else 0
  }

  /** `timer.Stop()`: a pending timer is stopped; a fired or stopped one is
      left as it is. */
  function StopTimer(t: Timer): (r: Timer)
    ensures r.state != Pending
    ensures r.domainId == t.domainId && r.delay == t.delay
    ensures t.state != Pending ==> r == t
  {
    if t.state == Pending then t.(state := Stopped) else t
  }

  /** `ScheduleDomain(d)` at `now`: stops the domain's current timer, if any,
      and maps the domain to a new pending timer with the computed delay. */
  function ScheduleDomain(s: State, d: Domain, now: Time): (r: State)
    requires Valid(s)
    ensures Valid(r)
    ensures PendingWith(r, d.id, Delay(d.nextCheck, now))
    ensures |r.timers| == |s.timers| + 1
    ensures d.id in s.scheduled ==> r.timers[s.scheduled[d.id]].state != Pending
    ensures forall h :: 0 <= h < |r.timers| && r.timers[h].domainId == d.id && r.timers[h].state == Pending ==>
      h == r.scheduled[d.id]
    ensures forall h :: 0 <= h < |s.timers| && s.timers[h].domainId != d.id ==> r.timers[h] == s.timers[h]
    ensures forall id :: id != d.id ==> (id in r.scheduled <==> id in s.scheduled)
    ensures forall id :: id != d.id && id in s.scheduled ==> r.scheduled[id] == s.scheduled[id]
    ensures r.cancelled == s.cancelled
  {
    var timers := if d.id in s.scheduled then s.timers[s.scheduled[d.id] := StopTimer(s.timers[s.scheduled[d.id]])]
                  else s.timers;
    State(timers + [Timer(d.id, Delay(d.nextCheck, now), Pending)], s.scheduled[d.id := |s.timers|], s.cancelled)
  }

  /** `UnscheduleDomain(id)`: stops the domain's timer and drops its entry;
      an ID without an entry changes nothing. */
  function UnscheduleDomain(s: State, id: string): (r: State)
    requires Valid(s)
    ensures Valid(r)
    ensures id !in r.scheduled
    ensures forall h :: 0 <= h < |r.timers| && r.timers[h].domainId == id ==> r.timers[h].state != Pending
    ensures id !in s.scheduled ==> r == s
    ensures forall k :: k != id ==> (k in r.scheduled <==> k in s.scheduled)
    ensures forall k :: k != id && k in s.scheduled ==> r.scheduled[k] == s.scheduled[k]
    ensures |r.timers| == |s.timers|
    ensures forall h :: 0 <= h < |s.timers| && s.timers[h].domainId != id ==> r.timers[h] == s.timers[h]
    ensures r.cancelled == s.cancelled
  {
    if id in s.scheduled then
      var h := s.scheduled[id];
      State(s.timers[h := StopTimer(s.timers[h])], s.scheduled - {id}, s.cancelled)
    else s
  }

  /** The timer part of `Stop()`: cancels the context and stops every timer
      in the map; the map itself keeps its entries. */
  function Stop(s: State): (r: State)
    requires Valid(s)
    ensures Valid(r)
    ensures r.cancelled && r.scheduled == s.scheduled
    ensures forall h :: 0 <= h < |r.timers| ==> r.timers[h].state != Pending
    ensures |r.timers| == |s.timers|
    ensures forall h :: 0 <= h < |s.timers| ==>
      r.timers[h].domainId == s.timers[h].domainId && r.timers[h].delay == s.timers[h].delay
    ensures forall h :: 0 <= h < |s.timers| && s.timers[h].state != Pending ==> r.timers[h] == s.timers[h]
  {
    var timers := seq(|s.timers|, h requires 0 <= h < |s.timers| =>
      if h in s.scheduled.Values then StopTimer(s.timers[h]) else s.timers[h]);
    forall h | 0 <= h < |s.timers| && s.timers[h].state == Pending
      ensures h in s.scheduled.Values
    {
      assert s.scheduled[s.timers[h].domainId] == h;
    }
    State(timers, s.scheduled, true)
  }

  /** `ds[k]` is the last domain in `ds[..n]` with its ID. */
  ghost predicate LastWithId(ds: seq<Domain>, n: nat, k: nat)
    requires k < n <= |ds|
  {
    forall j :: k < j < n ==> ds[j].id != ds[k].id
  }

  /** Every ID of `ds[..n]` has a pending timer, with the delay of the last
      domain in `ds[..n]` that carries the ID. */
  ghost predicate ScheduledFrom(r: State, ds: seq<Domain>, n: nat, now: Time)
    requires n <= |ds|
  {
    forall k :: 0 <= k < n && LastWithId(ds, n, k) ==> PendingWith(r, ds[k].id, Delay(ds[k].nextCheck, now))
  }

  /** `Start()`: loads all domains and schedules each in turn; a failed load
      is returned and schedules nothing. IDs not in the list keep their
      entries. */
  method Start(s: State, load: Result<seq<Domain>>, now: Time) returns (r: State, err: Option<string>)
    requires Valid(s)
    ensures Valid(r)
    ensures load.Err? ==> r == s && err == Some(Wrap("failed to load domains", load.msg))
    ensures load.Ok? ==> err.None? && r.cancelled == s.cancelled
    ensures load.Ok? ==> ScheduledFrom(r, load.value, |load.value|, now)
    ensures load.Ok? ==> forall id :: id in r.scheduled <==> id in s.scheduled || exists k :: 0 <= k < |load.value| && load.value[k].id == id
    ensures load.Ok? ==> forall id :: id in s.scheduled && (forall k :: 0 <= k < |load.value| ==> load.value[k].id != id) ==>
      id in r.scheduled && r.scheduled[id] == s.scheduled[id]
  {
    if load.Err? {
      return s, Some(Wrap("failed to load domains", load.msg));
    }
    var ds := load.value;
    r := s;
    var i := 0;
    while i < |ds|
      invariant 0 <= i <= |ds|
      invariant Valid(r) && r.cancelled == s.cancelled
      invariant ScheduledFrom(r, ds, i, now)
      invariant forall id :: id in r.scheduled <==> id in s.scheduled || exists k :: 0 <= k < i && ds[k].id == id
      invariant forall id :: id in s.scheduled && (forall k :: 0 <= k < i ==> ds[k].id != id) ==>
        id in r.scheduled && r.scheduled[id] == s.scheduled[id]
    {
      var next := ScheduleDomain(r, ds[i], now);
      ScheduleStep(r, next, ds, i, now);
      r := next;
      i := i + 1;
    }
    err := None;
  }

  /** Scheduling `ds[i]` extends `ScheduledFrom` from `ds[..i]` to `ds[..i + 1]`. */
  lemma ScheduleStep(r: State, next: State, ds: seq<Domain>, i: nat, now: Time)
    requires i < |ds| && Valid(r)
    requires next == ScheduleDomain(r, ds[i], now)
    requires ScheduledFrom(r, ds, i, now)
    ensures ScheduledFrom(next, ds, i + 1, now)
  {
    forall k | 0 <= k < i + 1 && LastWithId(ds, i + 1, k)
      ensures PendingWith(next, ds[k].id, Delay(ds[k].nextCheck, now))
    {
      if k < i {
        assert LastWithId(ds, i, k);
        assert ds[k].id != ds[i].id;
        var h := r.scheduled[ds[k].id];
        assert next.timers[h] == r.timers[h];
      }
    }
  }

  /** `reschedule(d)`: nothing once the context is cancelled, otherwise
      `ScheduleDomain(d)`. */
  function Reschedule(s: State, d: Domain, now: Time): (r: State)
    requires Valid(s)
    ensures Valid(r)
    ensures s.cancelled ==> r == s
    ensures !s.cancelled ==> PendingWith(r, d.id, Delay(d.nextCheck, now))
    ensures r.cancelled == s.cancelled
  {
    if s.cancelled then s else ScheduleDomain(s, d, now)
  }

  /** A pending timer fires: it is spent, and the check it runs is for its
      domain. The map is unchanged. */
  function Fire(s: State, h: nat): (r: (State, string))
    requires Valid(s) && h < |s.timers| && s.timers[h].state == Pending
    ensures Valid(r.0)
    ensures r.1 == s.timers[h].domainId && r.1 in s.scheduled && s.scheduled[r.1] == h
    ensures r.0.scheduled == s.scheduled && r.0.cancelled == s.cancelled
    ensures forall k :: 0 <= k < |r.0.timers| ==> r.0.timers[k].state != Pending || r.0.timers[k].domainId != r.1
  {
    (s.(timers := s.timers[h := s.timers[h].(state := Fired)]), s.timers[h].domainId)
  }

  /** The domain as `checkDomain` leaves it: checked now, next check one
      monitoring interval later, and the WHOIS facts replaced when the lookup
      succeeded. `UpdatedAt` is set by the store's `Update` on the same value. */
  function Checked(d: Domain, info: Result<DomainInfo>, interval: Duration, now: Time): (r: Domain)
    ensures r.lastChecked == now && r.nextCheck == Add(now, interval) && r.updatedAt == now
    ensures r.id == d.id && r.name == d.name && r.createdAt == d.createdAt
    ensures info.Err? ==>
      (r.expirationDate == d.expirationDate && r.nameservers == d.nameservers
       && r.registrant == d.registrant && r.registrar == d.registrar)
    ensures info.Ok? ==>
      (r.expirationDate == info.value.expirationDate && r.nameservers == info.value.nameservers
       && r.registrant == info.value.registrant && r.registrar == info.value.registrar)
  {
    var d1 := if info.Ok? then
                d.(expirationDate := info.value.expirationDate, nameservers := info.value.nameservers,
                   registrant := info.value.registrant, registrar := info.value.registrar)
              else d;
    d1.(lastChecked := now, nextCheck := Add(now, interval), updatedAt := now)
  }

  /** What one check did: the scheduler afterwards, the domain written to the
      store (when an update was attempted) and the domain alerts were
      evaluated for (when they were). */
  datatype Tick = Tick(sched: State, written: Option<Domain>, evaluated: Option<Domain>)

  /** `checkDomain(domainID)` at `now`. `slot` is whether a worker slot was
      taken (the other branch of the `select` needs a cancelled context);
      `lookup`, `config`, `info` and `updateErr` are the outcomes of
      `GetByID`, `configRepo.Get`, `QueryDomain` and `domainRepo.Update`.
      Alert evaluation's own error is ignored, so it is not an input. */
  function CheckDomain(s: State, domainId: string, now: Time, slot: bool, lookup: Result<Domain>,
                       config: Result<ConfigEntity.Config>, info: Result<DomainInfo>,
                       updateErr: Option<string>): (r: Tick)
    requires Valid(s)
    requires !slot ==> s.cancelled
    requires lookup.Ok? ==> lookup.value.id == domainId
    ensures Valid(r.sched)
    ensures !slot || lookup.Err? ==> r == Tick(s, None, None)
    ensures s.cancelled ==> r.sched == s
    ensures slot && lookup.Ok? && config.Err? ==>
      r.written.None? && r.evaluated.None? && r.sched == Reschedule(s, lookup.value, now)
    ensures slot && lookup.Ok? && config.Ok? ==>
      r.written == Some(Checked(lookup.value, info, ConfigEntity.GetMonitoringInterval(config.value), now))
      && r.sched == Reschedule(s, r.written.value, now)
      && (r.evaluated.Some? <==> updateErr.None?)
      && (r.evaluated.Some? ==> r.evaluated == r.written)
  {
    if !slot || lookup.Err? then Tick(s, None, None)
    else
      var d := lookup.value;
      if config.Err? then Tick(Reschedule(s, d, now), None, None)
      else
        var written := Checked(d, info, ConfigEntity.GetMonitoringInterval(config.value), now);
        if updateErr.Some? then Tick(Reschedule(s, written, now), Some(written), None)
        else Tick(Reschedule(s, written, now), Some(written), Some(written))
  }

  /** After a check that got as far as reading the config, while the
      scheduler runs, the domain has exactly one pending timer and it fires
      one monitoring interval later, whether the WHOIS lookup or the update
      failed or not. */
  lemma CheckReschedulesAfterInterval(s: State, domainId: string, now: Time, lookup: Result<Domain>,
                                      config: Result<ConfigEntity.Config>, info: Result<DomainInfo>,
                                      updateErr: Option<string>)
    requires Valid(s) && !s.cancelled
    requires lookup.Ok? && lookup.value.id == domainId && config.Ok?
    requires ConfigEntity.GetMonitoringInterval(config.value) > 0
    ensures var r := CheckDomain(s, domainId, now, true, lookup, config, info, updateErr);
      && PendingWith(r.sched, domainId, ConfigEntity.GetMonitoringInterval(config.value))
      && forall h :: 0 <= h < |r.sched.timers| && r.sched.timers[h].domainId == domainId && r.sched.timers[h].state == Pending ==>
           h == r.sched.scheduled[domainId]
  {
    var interval := ConfigEntity.GetMonitoringInterval(config.value);
    var written := Checked(lookup.value, info, interval, now);
    assert Delay(written.nextCheck, now) == interval;
  }

  /** A monitoring interval that is zero or negative (one the form's int64
      product wrapped) makes the checked domain due again at once: its single
      pending timer has delay zero, whatever the lookup or the update did. */
  lemma CheckDueAtOnceForNonPositiveInterval(s: State, domainId: string, now: Time, lookup: Result<Domain>,
                                             config: Result<ConfigEntity.Config>, info: Result<DomainInfo>,
                                             updateErr: Option<string>)
    requires Valid(s) && !s.cancelled
    requires lookup.Ok? && lookup.value.id == domainId && config.Ok?
    requires ConfigEntity.GetMonitoringInterval(config.value) <= 0
    ensures PendingWith(CheckDomain(s, domainId, now, true, lookup, config, info, updateErr).sched, domainId, 0)
  {
    var written := Checked(lookup.value, info, ConfigEntity.GetMonitoringInterval(config.value), now);
    assert Delay(written.nextCheck, now) == 0;
  }

  /** When the config cannot be read, the domain is rescheduled with the
      `NextCheck` it already had; once that moment has passed, the next check
      is due immediately. */
  lemma ConfigFailureRetriesAtOnce(s: State, domainId: string, now: Time, lookup: Result<Domain>,
                                   config: Result<ConfigEntity.Config>, info: Result<DomainInfo>,
                                   updateErr: Option<string>)
    requires Valid(s) && !s.cancelled
    requires lookup.Ok? && lookup.value.id == domainId && config.Err?
    requires lookup.value.nextCheck <= now
    ensures PendingWith(CheckDomain(s, domainId, now, true, lookup, config, info, updateErr).sched, domainId, 0)
  {
  }

  /** A check driven by the store: when `Update` succeeds, the store holds
      the checked domain in place of its old row, every other row is as it
      was, and alerts are evaluated for exactly the domain that was stored. */
  lemma CheckStoresWhatItEvaluates(s: State, rows: seq<Domain>, domainId: string, now: Time,
                                   config: Result<ConfigEntity.Config>, info: Result<DomainInfo>,
                                   execFault: Option<string>, rowsFault: Option<string>)
    requires Valid(s) && DomainRepository.WellFormed(rows)
    requires DomainRepository.HasId(rows, domainId) && config.Ok?
    ensures var lookup := DomainRepository.GetByID(rows, domainId, None);
      var written := Checked(lookup.value, info, ConfigEntity.GetMonitoringInterval(config.value), now);
      var update := DomainRepository.Update(rows, written, now, execFault, rowsFault);
      var r := CheckDomain(s, domainId, now, true, lookup, config, info, update.1);
      update.1.None? ==>
        && r.evaluated == Some(written)
        && DomainRepository.GetByID(update.0, domainId, None) == Ok(written)
        && forall i :: 0 <= i < |rows| && rows[i].id != domainId ==> update.0[i] == rows[i]
  {
    var lookup := DomainRepository.GetByID(rows, domainId, None);
    var written := Checked(lookup.value, info, ConfigEntity.GetMonitoringInterval(config.value), now);
    var update := DomainRepository.Update(rows, written, now, execFault, rowsFault);
    if update.1.None? {
      var k :| 0 <= k < |rows| && rows[k] == lookup.value;
      assert update.0[k] == written;
      var got := DomainRepository.GetByID(update.0, domainId, None);
      var m :| 0 <= m < |update.0| && update.0[m] == got.value;
      assert m == k;
    }
  }
}

=== FILE: seqs.dfy ===
/** Row-set operations the repositories' SQL performs: `WHERE` filters and
    `ORDER BY` sorts over a table held as a sequence of rows. */
module Seqs {

  /** `SELECT ... WHERE p`: the rows satisfying `p`, each as often as it occurs. */
  function Filter<T(==,!new)>(s: seq<T>, p: T -> bool): (r: seq<T>)
    ensures |r| <= |s|
    ensures forall x :: x in r <==> x in s && p(x)
    ensures forall x :: multiset(r)[x] == if p(x) then multiset(s)[x] else 0
  {
    if |s| == 0 then []
    else
      assert s == [s[0]] + s[1..];
      (if p(s[0]) then [s[0]] else []) + Filter(s[1..], p)
  }

  /** The keys of `s` never decrease. */
  ghost predicate SortedBy<T>(s: seq<T>, key: T -> int) {
    forall i, j :: 0 <= i < j < |s| ==> key(s[i]) <= key(s[j])
  }

  function Insert<T(==,!new)>(x: T, s: seq<T>, key: T -> int): (r: seq<T>)
    requires SortedBy(s, key)
    ensures multiset(r) == multiset(s) + multiset{x}
    ensures |r| == |s| + 1
    ensures SortedBy(r, key)
  {
    if |s| == 0 then [x]
    else if key(x) <= key(s[0]) then [x] + s
    else
      assert s == [s[0]] + s[1..];
      var t := Insert(x, s[1..], key);
      InsertHead(x, s, t, key);
      [s[0]] + t
  }

  lemma InsertHead<T>(x: T, s: seq<T>, t: seq<T>, key: T -> int)
    requires |s| > 0 && key(s[0]) < key(x) && SortedBy(s, key) && SortedBy(t, key)
    requires multiset(t) == multiset(s[1..]) + multiset{x}
    ensures SortedBy([s[0]] + t, key)
  {
    forall y | y in t
      ensures key(s[0]) <= key(y)
    {
      assert y in multiset(t);
      if y != x {
        assert y in multiset(s[1..]);
        var k :| 0 <= k < |s[1..]| && s[1..][k] == y;
        assert s[k + 1] == y;
      }
    }
    var r := [s[0]] + t;
    forall i, j | 0 <= i < j < |r|
      ensures key(r[i]) <= key(r[j])
    {
      if i == 0 {
        assert r[j] == t[j - 1] && r[j] in t;
      } else {
        assert r[i] == t[i - 1] && r[j] == t[j - 1];
      }
    }
  }

  /** `ORDER BY key ASC`: a permutation of `s` whose keys never decrease.
      (Rows with equal keys come out in an order SQL leaves unspecified.) */
  function SortBy<T(==,!new)>(s: seq<T>, key: T -> int): (r: seq<T>)
    ensures SortedBy(r, key)
    ensures multiset(r) == multiset(s)
    ensures |r| == |s|
  {
    if |s| == 0 then []
    else
      assert s == [s[0]] + s[1..];
      Insert(s[0], SortBy(s[1..], key), key)
  }
}

=== FILE: whois_entity.dfy ===
/** `internal/domain/whois.go`: the facts a WHOIS lookup yields. */
module WhoisEntity {
  import opened GoTime

  datatype DomainInfo = DomainInfo(
    domainName: string,
    expirationDate: Time,
    nameservers: seq<string>,
    registrant: string,
    registrar: string,
    createdDate: Time,
    updatedDate: Time)

  /** `IsValid()`: every required fact is present. */
  predicate IsValid(di: DomainInfo) {
    di.domainName != "" && !IsZero(di.expirationDate) && |di.nameservers| > 0 &&
    di.registrant != "" && di.registrar != ""
  }

  /** Any one missing fact makes the record invalid. */
  lemma MissingFieldInvalid(di: DomainInfo)
    ensures di.domainName == "" ==> !IsValid(di)
    ensures IsZero(di.expirationDate) ==> !IsValid(di)
    ensures di.nameservers == [] ==> !IsValid(di)
    ensures di.registrant == "" ==> !IsValid(di)
    ensures di.registrar == "" ==> !IsValid(di)
  {
  }

  /** `DaysUntilExpiration()` read at `now`: whole days truncated toward zero. */
  function DaysUntilExpiration(di: DomainInfo, now: Time): (n: int)
    ensures var left := Sub(di.expirationDate, now);
      (left >= 0 ==> 0 <= n * Day <= left < n * Day + Day) &&
      (left < 0 ==> n * Day - Day < left <= n * Day <= 0)
  {
    WholeDays(Sub(di.expirationDate, now))
  }
}

=== FILE: whois_service.dfy ===
/** `internal/whois/service.go`: the lookup retry loop, the per-attempt
    timeout and error wrapping, and the construction of a `DomainInfo` from
    the WHOIS parser's output. The WHOIS client, the WHOIS parser and
    `time.Parse` are parameters; each attempt's outcome is supplied. */
module WhoisService {
  import opened Wrappers
  import opened GoTime
  import opened Decimal
  import opened WhoisEntity
  import Retry

  /** The parser's view of a contact (registrant or registrar). */
  datatype Contact = Contact(name: string, organization: string, email: string)

  /** The parser's domain section; dates are still text. */
  datatype DomainSection = DomainSection(
    domain: string,
    expirationDate: string,
    createdDate: string,
    updatedDate: string,
    nameServers: seq<string>)

  /** The parser's result; each section may be missing. */
  datatype WhoisInfo = WhoisInfo(domain: Option<DomainSection>, registrar: Option<Contact>, registrant: Option<Contact>)

  /** `time.Parse(layout, value)`; on failure Go also returns the zero time. */
  type TimeParser = (string, string) -> Result<Time>

  /** The layouts tried, in order, for every date. */
  const DateFormats: seq<string> := [
    "2006-01-02",
    "2006-01-02T15:04:05Z",
    "2006-01-02 15:04:05",
    "2006-01-02T15:04:05",
    "2006-01-02 15:04:05 MST"]

  /** Tries each layout in turn and stops at the first that parses; when none
      does, the last layout's error stands. With no layouts at all nothing is
      tried and the zero time comes back without error. */
  function ParseWithFormats(formats: seq<string>, value: string, parse: TimeParser): (r: Result<Time>)
    ensures r.Err? <==> |formats| > 0 && forall i :: 0 <= i < |formats| ==> parse(formats[i], value).Err?
    ensures r.Err? ==> r == parse(formats[|formats| - 1], value)
    ensures r.Ok? && |formats| > 0 ==> exists i :: (0 <= i < |formats| && parse(formats[i], value) == r &&
      forall j :: 0 <= j < i ==> parse(formats[j], value).Err?)
    ensures |formats| == 0 ==> r == Ok(ZeroTime)
  {
    if |formats| == 0 then Ok(ZeroTime)
    else
      var t := parse(formats[0], value);
      if t.Ok? || |formats| == 1 then t
      else
        var rest := ParseWithFormats(formats[1..], value, parse);
        assert forall i :: 1 <= i < |formats| ==> formats[i] == formats[1..][i - 1];
        rest
  }

  /** The date of an optional field: empty text, or text no layout parses,
      gives the zero time; any other date is what some layout parsed, the
      first layout that parses at all. */
  function OptionalDate(value: string, parse: TimeParser): (t: Time)
    ensures t == ZeroTime || exists i :: 0 <= i < |DateFormats| && parse(DateFormats[i], value) == Ok(t)
    ensures value != "" && (exists i :: 0 <= i < |DateFormats| && parse(DateFormats[i], value).Ok?) ==>
      exists i :: 0 <= i < |DateFormats| && parse(DateFormats[i], value) == Ok(t) &&
        forall j :: 0 <= j < i ==> parse(DateFormats[j], value).Err?
    ensures value == "" ==> t == ZeroTime
    ensures value != "" && ParseWithFormats(DateFormats, value, parse).Ok? ==> t == ParseWithFormats(DateFormats, value, parse).value
    ensures value != "" && ParseWithFormats(DateFormats, value, parse).Err? ==> t == ZeroTime
  {
    if value == "" then ZeroTime
    else
      var r := ParseWithFormats(DateFormats, value, parse);
      if r.Ok? then r.value else ZeroTime
  }

  /** `extractRegistrant`: the registrant's name, else organization, else
      email, else "Unknown" (also when there is no registrant). */
  function ExtractRegistrant(registrant: Option<Contact>): (r: string)
    ensures r != ""
    ensures registrant.None? ==> r == "Unknown"
    ensures registrant.Some? ==> var c := registrant.value;
      (c.name != "" ==> r == c.name) &&
      (c.name == "" && c.organization != "" ==> r == c.organization) &&
      (c.name == "" && c.organization == "" && c.email != "" ==> r == c.email) &&
      (c.name == "" && c.organization == "" && c.email == "" ==> r == "Unknown")
  {
    if registrant.None? then "Unknown"
    else if registrant.value.name != "" then registrant.value.name
    else if registrant.value.organization != "" then registrant.value.organization
    else if registrant.value.email != "" then registrant.value.email
    else "Unknown"
  }

  /** `ParseWHOISResponse(raw)`. */
  function ParseResponse(raw: string, parser: string -> Result<WhoisInfo>, parse: TimeParser): (r: Result<DomainInfo>)
    ensures parser(raw).Err? ==> r == Err(Wrap("failed to parse WHOIS response", parser(raw).msg))
    ensures parser(raw).Ok? && parser(raw).value.domain.None? ==>
      r == Err("WHOIS response does not contain domain information")
    ensures r.Ok? <==> (parser(raw).Ok? && parser(raw).value.domain.Some? &&
      ParseWithFormats(DateFormats, parser(raw).value.domain.value.expirationDate, parse).Ok?)
    ensures r.Err? && parser(raw).Ok? && parser(raw).value.domain.Some? ==>
      var text := parser(raw).value.domain.value.expirationDate;
      exists e :: r.msg == Wrap("failed to parse expiration date '" + text + "'", e)
    ensures r.Ok? ==> var p := parser(raw).value; var dom := p.domain.value;
      && r.value.domainName == dom.domain
      && r.value.nameservers == dom.nameServers
      && r.value.expirationDate == ParseWithFormats(DateFormats, dom.expirationDate, parse).value
      && r.value.registrant == ExtractRegistrant(p.registrant)
      && r.value.registrar == (if p.registrar.Some? then p.registrar.value.name else "")
      && r.value.createdDate == OptionalDate(dom.createdDate, parse)
      && r.value.updatedDate == OptionalDate(dom.updatedDate, parse)
  {
    var parsed := parser(raw);
    if parsed.Err? then Err(Wrap("failed to parse WHOIS response", parsed.msg))
    else if parsed.value.domain.None? then Err("WHOIS response does not contain domain information")
    else
      var p := parsed.value;
      var dom := p.domain.value;
      var exp := ParseWithFormats(DateFormats, dom.expirationDate, parse);
      if exp.Err? then Err(Wrap("failed to parse expiration date '" + dom.expirationDate + "'", exp.msg))
      else
        Ok(DomainInfo(
          dom.domain,
          exp.value,
          dom.nameServers,
          ExtractRegistrant(p.registrant),
          if p.registrar.Some? then p.registrar.value.name else "",
          OptionalDate(dom.createdDate, parse),
          OptionalDate(dom.updatedDate, parse)))
  }

  /** A complete parser result (domain name, a non-zero expiration date that
      some layout reads, nameservers and a named registrar) yields a valid
      `DomainInfo`; the registrant is never missing. */
  lemma CompleteResponseIsValid(raw: string, parser: string -> Result<WhoisInfo>, parse: TimeParser)
    requires parser(raw).Ok? && parser(raw).value.domain.Some?
    requires var p := parser(raw).value; var dom := p.domain.value;
      && dom.domain != "" && |dom.nameServers| > 0
      && p.registrar.Some? && p.registrar.value.name != ""
      && ParseWithFormats(DateFormats, dom.expirationDate, parse).Ok?
      && !IsZero(ParseWithFormats(DateFormats, dom.expirationDate, parse).value)
    ensures ParseResponse(raw, parser, parse).Ok? && IsValid(ParseResponse(raw, parser, parse).value)
  {
  }

  /** What one attempt's lookup did: it timed out, or the WHOIS client
      returned a raw response or an error. */
  datatype Attempt = TimedOut | Completed(lookup: Result<string>)

  /** `%v` of the 30-second timeout. */
  const TimeoutText: string := "30s"

  /** `queryWithTimeout` and `query` for one attempt. */
  function QueryOnce(name: string, a: Attempt, parser: string -> Result<WhoisInfo>, parse: TimeParser): (r: Result<DomainInfo>)
    ensures a.TimedOut? ==> r == Err("WHOIS query timed out after " + TimeoutText)
    ensures a.Completed? && a.lookup.Err? ==> r == Err(Wrap("WHOIS query failed", a.lookup.msg))
    ensures a.Completed? && a.lookup.Ok? ==> var parsed := ParseResponse(a.lookup.value, parser, parse);
      (r.Ok? <==> parsed.Ok?) && (r.Ok? ==> r == parsed) &&
      (r.Err? ==> r.msg == "WHOIS parsing failed for " + name + ": " + parsed.msg + "\nRaw response: " + a.lookup.value)
  {
    match a
    case TimedOut => Err("WHOIS query timed out after " + TimeoutText)
    case Completed(lookup) =>
      if lookup.Err? then Err(Wrap("WHOIS query failed", lookup.msg))
      else
        var parsed := ParseResponse(lookup.value, parser, parse);
        if parsed.Err? then Err("WHOIS parsing failed for " + name + ": " + parsed.msg + "\nRaw response: " + lookup.value)
        else parsed
  }

  /** `%w` of a nil error. */
  const NilWrapped: string := "%!w(<nil>)"

  /** The error `QueryDomain` reports when no attempt succeeded. */
  function QueryError(maxRetries: Int64, lastErr: Option<string>): string {
    "failed after " + IntToString(maxRetries) + " attempts: " + (if lastErr.Some? then lastErr.value else NilWrapped)
  }

  /** One attempt of `QueryDomain` as a retry attempt. */
  function AttemptOf(name: string, attempt: nat -> Attempt, parser: string -> Result<WhoisInfo>, parse: TimeParser): nat -> Result<DomainInfo> {
    (k: nat) => QueryOnce(name, attempt(k), parser, parse)
  }

  /** `QueryDomain(name)` with `attempt(k)` the outcome of the `k`-th lookup.
      Returns the result, the number of attempts and the durations slept. */
  method QueryDomain(name: string, maxRetries: Int64, attempt: nat -> Attempt,
                     parser: string -> Result<WhoisInfo>, parse: TimeParser)
    returns (r: Result<DomainInfo>, tries: nat, sleeps: seq<Duration>)
    ensures var once := AttemptOf(name, attempt, parser, parse);
      && tries <= Retry.Max0(maxRetries)
      && (r.Ok? ==> tries >= 1 && r == once(tries - 1))
      && (forall k :: 0 <= k < tries && (r.Err? || k < tries - 1) ==> once(k).Err?)
      && (r.Err? ==> tries == Retry.Max0(maxRetries))
      && (r.Err? && tries > 0 ==> r.msg == QueryError(maxRetries, Some(once(tries - 1).msg)))
      && (r.Err? && tries == 0 ==> r.msg == QueryError(maxRetries, None))
      && sleeps == Retry.Backoffs(Retry.Max0(tries - 1))
  {
    var run := Retry.RetryLoop(maxRetries, AttemptOf(name, attempt, parser, parse));
    tries := run.attempts;
    sleeps := run.sleeps;
    r := if run.value.Some? then Ok(run.value.value) else Err(QueryError(maxRetries, run.lastErr));
  }
}

=== FILE: wrappers.dfy ===
/** Failure-carrying values used throughout the model.
    Go's `error` is modelled by its message text (what `err.Error()` returns). */
module Wrappers {

  /** A value that may be absent: a Go nil pointer or nil error. */
  datatype Option<+T> = None | Some(value: T)

  /** The `(value, error)` pair a Go function returns, with the error as its text. */
  datatype Result<+T> = Ok(value: T) | Err(msg: string) {

    predicate IsFailure() {
      Err?
    }

    function PropagateFailure<U>(): Result<U>
      requires Err?
    {
      Err(msg)
    }

    function Extract(): T
      requires Ok?
    {
      value
    }
  }

  /** The text of `fmt.Errorf(prefix + ": %w", inner)`. */
  function Wrap(prefix: string, inner: string): string {
    prefix + ": " + inner
  }
}
